=== FILE: README.md ===
# WRLD Unity plugin bookkeeping, modelled in Dafny

This project models the sequential bookkeeping of the WRLD Unity plugin. That
layer sits between the native streaming plugin and the Unity scene:

- the **object factory** builds one inactive game object per streamed mesh. Its
  name is "{mesh}_INDEX{i}" and its collider (none, the mesh, or a double-sided
  copy) is chosen by the collision policy;
- the **per-category streamer** keeps the objects of one resource category,
  keyed by resource id;
- the **scene dispatcher** puts an enable gate in front of the native add,
  delete and visibility callbacks. It routes each id to the terrain, road,
  building or highlight streamer by its prefix;
- the **buildings API** correlates building and highlight requests with their
  asynchronous responses. It builds highlight meshes and reveals them in two
  phases;
- the **geographic registry** is the list of geographic transforms updated each
  frame. Each transform registers and unregisters itself over the Unity
  enable/disable/start lifecycle;
- the **camera API** holds the controlled camera and resolves the camera of
  each conversion. It encodes the `SetView` arguments of `MoveTo` / `AnimateTo`
  and tracks `IsTransitioning` from native camera events;
- the **`Api` singleton** covers `Create`/`Destroy`, the API-key check, the
  swallowed missing-DLL error and `UpdateCollisions`;
- the **API-key validator** and its cache;
- the **thread-handle table** and its 32-bit handle allocator.

## How the model is built

- Each source class is a Dafny module with an immutable state datatype, and
  its operations are pure functions.
- A C# exception is `Result.Failure(kind)`.
- Where the source changes state and then throws, the result is a
  `Partial(state, thrown)` that keeps the changed state.
- Collaborators outside the model are parameters holding functions. These are
  `MaterialRepository`, `MeshUploader`, `ITransformUpdateStrategy`,
  `EcefHelpers`, the lat/long-to-ECEF conversion, the camera projections and
  the view solver.
- Native calls and user callbacks are returned as values (`NativeCall`,
  `Invocation`, `SetViewArgs`, `UpdateStep`).
- Unity objects are records with an active flag, and rotations are free terms,
  so `localRotation *= r` is exact.
- Counters that the C# code increments unchecked wrap at 32 bits (`Int32`).
- `BuildingsApi` keeps its pending requests, highlight streamer and reveal
  list in static fields shared by every instance, but its two request
  counters per instance. The model holds both kinds in one `Buildings`
  value, which is exact while a single `BuildingsApi` is live. A second
  instance would reset the shared maps and list in its constructor, while
  the first keeps its own counters. Two live instances are not modelled.

In these places the code behaves in a way a reader might not expect, and the model follows the code:

- `Api.Destroy` calls `m_implementation.Destroy()` before clearing
  `Instance`. On the path where the missing-DLL error was swallowed,
  `m_implementation` is null. `Destroy` then throws and `Instance` stays set
  (`Api.SwallowedInstanceCannotBeDestroyed`), so it does not always leave
  `Instance` null.
- The key pattern `^[a-f0-9]{32}$` has no multiline option, and in .NET its `$`
  also matches before one final line feed. So 32 lower-case hex digits
  followed by "\n" pass as well.
- The highlight part id is the highlight id followed by the decimal part
  number. It is unambiguous within one highlight, but two highlights can
  produce the same part id (`BuildingsApi.PartIdsCanCollideAcrossHighlights`).
- `GeographicApi.Unregister` is `List.Remove`. If a transform is listed
  twice, registering and unregistering it again removes the earlier entry and
  reorders the list (`GeographicApi.RegisterThenUnregisterReorders`).

## Model

| member | source | states |
|---|---|---|
| GameObjectFactory.GameObjectNameRoundTrip | Assets/Wrld/Scripts/Streaming/GameObjectFactory.cs:14-17 | A name "{mesh}_INDEX{i}" reads back as exactly (mesh, i), and only that name does, so object names determine mesh name and index |
| GameObjectFactory.CreateGameObjectNameReadsBack | Assets/Wrld/Scripts/Streaming/GameObjectFactory.cs:14-17 | The name built for a mesh name and an index reads back as exactly that pair |
| GameObjectFactory.ParsedNameIsBuilt | Assets/Wrld/Scripts/Streaming/GameObjectFactory.cs:14-17 | A name that reads back as a pair is the name built from that pair |
| GameObjectFactory.TrailingDigitCount | Assets/Wrld/Scripts/Streaming/GameObjectFactory.cs:14-17 | The counted suffix is all digits and maximal (the character before it is not a digit), which is what makes the decimal index readable back |
| GameObjectFactory.ReverseWindings | Assets/Wrld/Scripts/Streaming/GameObjectFactory.cs:76-80 | Same length as the source, and triangle t is source triangle t with its last two indices swapped |
| GameObjectFactory.DoubleSidedTriangles | Assets/Wrld/Scripts/Streaming/GameObjectFactory.cs:65-80 | Succeeds exactly when the index count is a multiple of three (otherwise the copy loop reads out of bounds); the result is twice as long, its first half is the source and each second-half triangle is the reversed source triangle |
| GameObjectFactory.CreateDoubleSidedCollisionMesh | Assets/Wrld/Scripts/Streaming/GameObjectFactory.cs:59-84 | The doubled mesh keeps name and vertices and carries the double-sided index array; it fails exactly for a length not divisible by three |
| GameObjectFactory.CollisionMesh | Assets/Wrld/Scripts/Streaming/GameObjectFactory.cs:29-41 | NoCollision gives no collider, SingleSided the mesh itself, DoubleSided its doubled copy; only the doubled case can fail |
| GameObjectFactory.CreateGameObject | Assets/Wrld/Scripts/Streaming/GameObjectFactory.cs:19-43 | The object is inactive and under the factory root. Reparenting keeps the world pose, so its local pose is the root's pose for an object at the world origin, with unit local scale. It has the given mesh, material and name, and a collider fitting the policy |
| GameObjectFactory.CreateGameObjectsFrom | Assets/Wrld/Scripts/Streaming/GameObjectFactory.cs:45-56 | From index `from` on: one fresh object per mesh in order, object k named after mesh k and its index k; fails exactly when some remaining mesh cannot get its collider |
| GameObjectFactory.CreateGameObjects | Assets/Wrld/Scripts/Streaming/GameObjectFactory.cs:45-56 | Exactly one fresh object per mesh, in mesh order, the i-th named "{mesh i}_INDEX{i}"; fails only for a double-sided policy and a bad triangle list |
| GameObjectFactory.CreatedNamesDistinct | Assets/Wrld/Scripts/Streaming/GameObjectFactory.cs:45-56 | The objects of one batch have pairwise distinct names, even when mesh names repeat |
| GameObjectStreamer.NewStreamer | Assets/Wrld/Scripts/Streaming/GameObjectStreamer.cs:16-22 | A new streamer holds no records and the given root and policy |
| GameObjectStreamer.AddObjectsForMeshes | Assets/Wrld/Scripts/Streaming/GameObjectStreamer.cs:29-40 | An empty batch throws; an id already present changes nothing; otherwise exactly the id `meshes[0].name` is added, other records stay, and its objects are fresh under the policy current at this call |
| GameObjectStreamer.RemoveObjects | Assets/Wrld/Scripts/Streaming/GameObjectStreamer.cs:42-45 | Reports whether the id was present; afterwards it is absent and every other record is unchanged |
| GameObjectStreamer.GetObjects | Assets/Wrld/Scripts/Streaming/GameObjectStreamer.cs:47-52 | Null exactly for an absent id, otherwise that id's objects |
| GameObjectStreamer.SetAllActive | Assets/Wrld/Scripts/Streaming/GameObjectStreamer.cs:64-67 | Every object of the batch gets the active flag and nothing else changes |
| GameObjectStreamer.SetVisible | Assets/Wrld/Scripts/Streaming/GameObjectStreamer.cs:59-70 | Sets the active flag of every object of the id, no-op for an unknown id, and no other record changes |
| GameObjectStreamer.ChangeCollision | Assets/Wrld/Scripts/Streaming/GameObjectStreamer.cs:72-75 | Only the stored policy changes; existing records are untouched |
| GameObjectStreamer.PlaceAll | Assets/Wrld/Scripts/Streaming/GameObjectStreamer.cs:54-57 | Each object of a record gets the strategy's transform for its record origin and the offset, and nothing else changes |
| GameObjectStreamer.UpdateTransforms | Assets/Wrld/Scripts/Streaming/GameObjectStreamer.cs:54-57 | Every object of every record is placed from its record's origin with the category offset; the set of ids, origins, counts and visibility stay |
| GameObjectStreamer.AddIsIdempotent | Assets/Wrld/Scripts/Streaming/GameObjectStreamer.cs:32-35 | Adding the same batch twice is the same as adding it once: at most one record per id |
| GameObjectStreamer.AddForPresentIdIsNoOp | Assets/Wrld/Scripts/Streaming/GameObjectStreamer.cs:32-35 | Any add whose first mesh names a present id leaves the streamer unchanged |
| GameObjectStreamer.VisibilityKeepsObjects | Assets/Wrld/Scripts/Streaming/GameObjectStreamer.cs:47-70 | Visibility toggles change neither which ids `GetObjects` answers nor the objects it returns, apart from their active flag |
| GameObjectStreamer.ShowThenHide | Assets/Wrld/Scripts/Streaming/GameObjectStreamer.cs:59-70 | Show then hide equals hide alone |
| GameObjectStreamer.HideInactiveIsNoOp | Assets/Wrld/Scripts/Streaming/GameObjectStreamer.cs:59-70 | Hiding a record whose objects are all inactive changes nothing |
| GameObjectStreamer.AddShowHideRestores | Assets/Wrld/Scripts/Streaming/GameObjectStreamer.cs:29-70 | A fresh add followed by show and hide restores the state right after the add |
| GameObjectStreamer.RemoveAbsentIsNoOp | Assets/Wrld/Scripts/Streaming/GameObjectStreamer.cs:42-45 | Removing an absent id reports false and changes nothing |
| GameObjectStreamer.CollisionChangeAffectsOnlyLaterAdds | Assets/Wrld/Scripts/Streaming/GameObjectStreamer.cs:72-75 | A policy change leaves every existing record as it was, and objects added afterwards get colliders fitting the new policy |
| MapGameObjectScene.NewScene | Assets/Wrld/Scripts/Streaming/MapGameObjectScene.cs:28-37 | The scene starts enabled with the four given streamers |
| MapGameObjectScene.SetEnabled | Assets/Wrld/Scripts/Streaming/MapGameObjectScene.cs:39-42 | The gate takes the given value and no streamer changes |
| MapGameObjectScene.WithStreamer | Assets/Wrld/Scripts/Streaming/MapGameObjectScene.cs:119-141 | Replacing the streamer of one category leaves the other three and the gate alone |
| MapGameObjectScene.GetStreamerFromName | Assets/Wrld/Scripts/Streaming/MapGameObjectScene.cs:119-141 | Exactly the empty id fails on reading its first character |
| MapGameObjectScene.RoutingTable | Assets/Wrld/Scripts/Streaming/MapGameObjectScene.cs:119-141 | Per category and in both directions: "Raster"/"Terrain" prefixes and 'M'/'L' go to terrain, 'R' (not "Raster") to road, 'B' to building, 'H' to highlight, any other first character throws ArgumentException |
| MapGameObjectScene.DeleteMesh | Assets/Wrld/Scripts/Streaming/MapGameObjectScene.cs:64-76 | Disabled: nothing changes. Enabled: fails exactly when the id cannot be routed; otherwise the id is removed from its category and the other streamers are unchanged |
| MapGameObjectScene.SetVisible | Assets/Wrld/Scripts/Streaming/MapGameObjectScene.cs:105-117 | Disabled: nothing changes. Enabled: the streamer visibility operation on the id's category only |
| MapGameObjectScene.AddMeshInternal | Assets/Wrld/Scripts/Streaming/MapGameObjectScene.cs:87-102 | Without meshes from the uploader only the error line is logged and no streamer is consulted. With meshes, an unroutable id fails with the routing error. Otherwise the call succeeds exactly when the streamer add does, failing with its error. On success the batch is added to the id's category and nothing else changes |
| MapGameObjectScene.AddMesh | Assets/Wrld/Scripts/Streaming/MapGameObjectScene.cs:79-85 | Disabled: no change and no log; enabled: exactly `AddMeshInternal` |
| MapGameObjectScene.ChangeCollision | Assets/Wrld/Scripts/Streaming/MapGameObjectScene.cs:44-52 | Terrain and buildings on map to single-sided, roads on to double-sided, off to NoCollision; highlight streamer and all records are untouched, and every streamer differs only in its policy |
| MapGameObjectScene.UpdateTransforms | Assets/Wrld/Scripts/Streaming/MapGameObjectScene.cs:54-61 | Each category's streamer is updated with its own height offset |
| MapGameObjectScene.OnlyRoadsAreLifted | Assets/Wrld/Scripts/Streaming/MapGameObjectScene.cs:54-61 | The height offset is non-zero exactly for roads (0.1) |
| MapGameObjectScene.DisabledSceneIgnoresCallbacks | Assets/Wrld/Scripts/Streaming/MapGameObjectScene.cs:64-111 | While disabled, add, delete and visibility callbacks change nothing, whatever the id or uploader |
| MapGameObjectScene.DisabledSceneIgnoresAllCallbacks | Assets/Wrld/Scripts/Streaming/MapGameObjectScene.cs:64-111 | A disabled scene stays as it is through any sequence of late callbacks |
| BuildingsApi.NewBuildings | Assets/Wrld/Scripts/Resources/Buildings/BuildingsApi.cs:89-98 | No pending requests, nothing to reveal, counters at 0, and the state is valid |
| BuildingsApi.GetBuildingAtLocation | Assets/Wrld/Scripts/Resources/Buildings/BuildingsApi.cs:128-136 | The request is stored under the counter's value and the native query carries that id; the counter advances by one (32-bit); a duplicate id throws as `Dictionary.Add` does; nothing else changes |
| BuildingsApi.GetBuildingAtLatLong | Assets/Wrld/Scripts/Resources/Buildings/BuildingsApi.cs:122-126 | The same as the altitude overload with altitude -1 |
| BuildingsApi.HighlightBuildingAtLocation | Assets/Wrld/Scripts/Resources/Buildings/BuildingsApi.cs:168-177 | The highlight request (material and callback) is stored under the counter's value, the native call carries that id, and the counter advances by one |
| BuildingsApi.HighlightBuildingAtLatLong | Assets/Wrld/Scripts/Resources/Buildings/BuildingsApi.cs:162-166 | The same as the altitude overload with altitude -1 |
| BuildingsApi.RequestsNeverCollide | Assets/Wrld/Scripts/Resources/Buildings/BuildingsApi.cs:128-177 | Below the 32-bit limit a request never collides: its id is fresh, the counter grows by exactly one and all pending ids stay below it |
| BuildingsApi.ClearHighlight | Assets/Wrld/Scripts/Resources/Buildings/BuildingsApi.cs:184-191 | A null handle does nothing; otherwise the native side is told to clear the highlight and only the handle's request id is dropped (harmless when absent) |
| BuildingsApi.ResponsesKeepValid | Assets/Wrld/Scripts/Resources/Buildings/BuildingsApi.cs:184-288 | Clearing a highlight, both responses, mesh upload and clear, and the reveal all keep every pending id below its counter: none issues an id or moves a counter |
| BuildingsApi.OnBuildingReceived | Assets/Wrld/Scripts/Resources/Buildings/BuildingsApi.cs:223-236 | An id without a pending request throws; otherwise exactly that request is removed and its callback invoked once with the building |
| BuildingsApi.OnHighlightReceived | Assets/Wrld/Scripts/Resources/Buildings/BuildingsApi.cs:239-254 | Throws for an unknown id; on success keeps the request and passes the handle (highlight id, request id); on failure removes it and passes null |
| BuildingsApi.UnissuedResponseIsFatal | Assets/Wrld/Scripts/Resources/Buildings/BuildingsApi.cs:223-254 | A response for an id never issued throws, for both kinds |
| BuildingsApi.GetHighlightGameObjectId | Assets/Wrld/Scripts/Resources/Buildings/BuildingsApi.cs:320-324 | The part id starts with the highlight id and the rest is the canonical decimal form of the part number |
| BuildingsApi.PartIdsDistinctWithinHighlight | Assets/Wrld/Scripts/Resources/Buildings/BuildingsApi.cs:320-324 | Within one highlight, part ids are equal exactly when the part numbers are |
| BuildingsApi.PartIdsCanCollideAcrossHighlights | Assets/Wrld/Scripts/Resources/Buildings/BuildingsApi.cs:320-324 | "H1" part 2 and "H" part 12 get the same id |
| BuildingsApi.Int16Value | Assets/Wrld/Scripts/Resources/Buildings/BuildingsApi.cs:309-314 | A raw 16-bit index read as a signed value lies in [-32768, 32768), and raw values from 32768 up become negative |
| BuildingsApi.Int16RoundTrip | Assets/Wrld/Scripts/Resources/Buildings/BuildingsApi.cs:309-314 | Reading a 16-bit index and encoding it back are inverse in both directions |
| BuildingsApi.CreateHighlightMesh | Assets/Wrld/Scripts/Resources/Buildings/BuildingsApi.cs:296-318 | Vertex i is the floats 3i..3i+2; index i is the signed reading of raw index i (its 16-bit encoding is the raw value) |
| BuildingsApi.SetFirstMaterial | Assets/Wrld/Scripts/Resources/Buildings/BuildingsApi.cs:270-271 | Only the material of the first object of that record changes |
| BuildingsApi.OnHighlightMeshUpload | Assets/Wrld/Scripts/Resources/Buildings/BuildingsApi.cs:257-272 | The part is added to the highlight streamer before the pending lookup; a missing request then throws with the part added but not listed. Otherwise the part is listed for reveal. A part without objects then throws; a part with objects has its first object take the request's material. The whole resulting state is given in each case |
| BuildingsApi.OnHighlightMeshClear | Assets/Wrld/Scripts/Resources/Buildings/BuildingsApi.cs:275-279 | Exactly the part's id is removed from the highlight streamer |
| BuildingsApi.RevealAll | Assets/Wrld/Scripts/Resources/Buildings/BuildingsApi.cs:283-286 | Every listed record's objects become active, other records are unchanged, ids stay |
| BuildingsApi.AddNewHighlights | Assets/Wrld/Scripts/Resources/Buildings/BuildingsApi.cs:281-288 | Each listed part keeps its origin and object count, and each of its objects is the old object made active. Unlisted parts are untouched, and the list is emptied |
| BuildingsApi.UploadThenReveal | Assets/Wrld/Scripts/Resources/Buildings/BuildingsApi.cs:257-288 | A freshly uploaded part stays hidden until the next `AddNewHighlights`, which shows it |
| BuildingsApi.HighlightLifecycle | Assets/Wrld/Scripts/Resources/Buildings/BuildingsApi.cs:168-254 | Issue, successful response (request kept, handle names it) and clear (request gone, native side told) return the pending map to where it started |
| GeographicApi.Register | Assets/Wrld/Scripts/Space/GeographicApi.cs:22-25 | Appends at the end; duplicates are kept (one more occurrence) |
| GeographicApi.Unregister | Assets/Wrld/Scripts/Space/GeographicApi.cs:31-34 | A listed transform loses one entry; an absent transform leaves the list unchanged |
| GeographicApi.UnregisterCounts | Assets/Wrld/Scripts/Space/GeographicApi.cs:31-34 | Exactly one occurrence of the transform goes, when there is one, and every other entry stays |
| GeographicApi.UnregisterRemovesFirst | Assets/Wrld/Scripts/Space/GeographicApi.cs:31-34 | The occurrence removed is the first one |
| GeographicApi.RegisterThenUnregister | Assets/Wrld/Scripts/Space/GeographicApi.cs:22-34 | For a transform not listed, register then unregister restores the list exactly |
| GeographicApi.RegisterThenUnregisterListed | Assets/Wrld/Scripts/Space/GeographicApi.cs:22-34 | For a listed transform the same entries remain |
| GeographicApi.RegisterThenUnregisterReorders | Assets/Wrld/Scripts/Space/GeographicApi.cs:22-34 | ...but not necessarily in the same order |
| GeographicApi.UpdateTransforms | Assets/Wrld/Scripts/Space/GeographicApi.cs:10-16 | The set of live transforms is unchanged |
| GeographicApi.UpdateOncePerEntry | Assets/Wrld/Scripts/Space/GeographicApi.cs:10-16 | Each transform is updated once per list entry: n entries give n updates, none gives none |
| GeographicTransform.Awake | Assets/Wrld/Scripts/Space/GeographicTransform.cs:69-74 | The basis sits at the ECEF form of the initial lat/long with the initial heading |
| GeographicTransform.RegistryOf | Assets/Wrld/API/Api.cs:173-179 | A null instance gives no Api; an instance without implementation gives the case where `GeographicApi` cannot be read; otherwise the live registry |
| GeographicTransform.RegisterSelf | Assets/Wrld/Scripts/Space/GeographicTransform.cs:42-49 | With a live Api, appends the transform and sets the ever-registered flag. Without an Api nothing changes. With an Api that has no implementation it throws NullReferenceException and the flag stays unset |
| GeographicTransform.UnregisterSelf | Assets/Wrld/Scripts/Space/GeographicTransform.cs:51-57 | With a live Api, removes one occurrence. With an Api that has no implementation it throws NullReferenceException. The flag never changes |
| GeographicTransform.OnEnable | Assets/Wrld/Scripts/Space/GeographicTransform.cs:59-62 | Registers |
| GeographicTransform.OnDisable | Assets/Wrld/Scripts/Space/GeographicTransform.cs:64-67 | Unregisters |
| GeographicTransform.Start | Assets/Wrld/Scripts/Space/GeographicTransform.cs:76-82 | Registers only a transform never registered before |
| GeographicTransform.EnableDisableKeepsRegistry | Assets/Wrld/Scripts/Space/GeographicTransform.cs:51-67 | An enable/disable pair leaves a live registry with the same entries. Otherwise nothing changes, and both calls throw exactly when the Api has no implementation |
| GeographicTransform.EnableThenStartRegistersOnce | Assets/Wrld/Scripts/Space/GeographicTransform.cs:59-82 | With an Api present, enable then start lists the transform exactly once |
| GeographicTransform.LateApiRegistersAtStart | Assets/Wrld/Scripts/Space/GeographicTransform.cs:59-82 | With no Api at enable but one at start, start registers it |
| GeographicTransform.SwallowedApiBreaksRegistration | Assets/Wrld/Scripts/Space/GeographicTransform.cs:40-82 | After `Api.Create` swallowed the missing-DLL error, enabling throws NullReferenceException. The flag stays unset, so every later start throws as well |
| GeographicTransform.SetPosition | Assets/Wrld/Scripts/Space/GeographicTransform.cs:105-108 | The ECEF position becomes the given point. Only the basis changes, and it becomes the helper's basis moved to that point |
| GeographicTransform.SetPositionLatLong | Assets/Wrld/Scripts/Space/GeographicTransform.cs:96-99 | Setting a lat/long is setting its ECEF conversion |
| GeographicTransform.SetHeading | Assets/Wrld/Scripts/Space/GeographicTransform.cs:114-117 | The basis is rebuilt at the current point, so the position is unchanged |
| GeographicTransform.EcefPositionAfterSetters | Assets/Wrld/Scripts/Space/GeographicTransform.cs:96-135 | `GetEcefPosition` after `Awake` or `SetPosition` gives their point; after `SetHeading` or `UpdateTransform` it gives the position from before |
| GeographicTransform.UpdateTransform | Assets/Wrld/Scripts/Space/GeographicTransform.cs:84-90 | The strategy places the object at the basis point with offset 0, then the basis orientation is multiplied onto the local rotation; nothing else changes |
| GeographicTransform.UpdateRegistered | Assets/Wrld/Scripts/Space/GeographicApi.cs:10-16 | Each live transform has `UpdateTransform` applied once per registry entry |
| GeographicTransform.UpdateTwice | Assets/Wrld/Scripts/Space/GeographicTransform.cs:84-90 | A transform listed twice keeps its basis and has the orientation multiplied on after each placement |
| CameraApi.SetControlledCamera | Assets/Wrld/Scripts/Camera/CameraApi.cs:40-43 | The camera read back is the one set; the transition flag stays |
| CameraApi.NewCameraApi | Assets/Wrld/Scripts/Camera/CameraApi.cs:28-34 | A new controller controls no camera and is not transitioning |
| CameraApi.GetControlledCamera | Assets/Wrld/Scripts/Camera/CameraApi.cs:48-51 | Setting the camera just read back changes nothing |
| CameraApi.HasControlledCamera | Assets/Wrld/Scripts/Camera/CameraApi.cs:308 | Holds exactly when the camera read back is not null |
| CameraApi.ClearControlledCamera | Assets/Wrld/Scripts/Camera/CameraApi.cs:56-59 | No camera is controlled afterwards |
| CameraApi.ControlledCameraAccessors | Assets/Wrld/Scripts/Camera/CameraApi.cs:28-308 | Get returns the camera last set, clear makes it null, `HasControlledCamera` holds iff it is non-null, and a new controller has none and is not transitioning |
| CameraApi.ResolveCamera | Assets/Wrld/Scripts/Camera/CameraApi.cs:69-77 | The argument camera if given, else the controlled one; ArgumentNullException exactly when both are null |
| CameraApi.GeographicToWorldPoint | Assets/Wrld/Scripts/Camera/CameraApi.cs:69-77 | Projects with the resolved camera; throws exactly when none resolves |
| CameraApi.WorldToGeographicPoint | Assets/Wrld/Scripts/Camera/CameraApi.cs:86-94 | Projects with the resolved camera; throws exactly when none resolves |
| CameraApi.GeographicToViewportPoint | Assets/Wrld/Scripts/Camera/CameraApi.cs:103-113 | Projects with the resolved camera; throws exactly when none resolves |
| CameraApi.ViewportToGeographicPoint | Assets/Wrld/Scripts/Camera/CameraApi.cs:121-131 | Projects with the resolved camera; throws exactly when none resolves |
| CameraApi.ScreenToGeographicPoint | Assets/Wrld/Scripts/Camera/CameraApi.cs:140-150 | Goes through viewport space with the resolved camera |
| CameraApi.GeographicToScreenPoint | Assets/Wrld/Scripts/Camera/CameraApi.cs:158-168 | Goes through viewport space with the resolved camera |
| CameraApi.OmittedCameraMeansControlledCamera | Assets/Wrld/Scripts/Camera/CameraApi.cs:69-168 | Omitting the camera equals passing the controlled one, and an explicit camera makes the controlled one irrelevant |
| CameraApi.EncodeOptional | Assets/Wrld/Scripts/Camera/CameraApi.cs:214-216 | An optional argument becomes (value or 0.0, has-value) |
| CameraApi.EncodeOptionalRoundTrip | Assets/Wrld/Scripts/Camera/CameraApi.cs:214-280 | Decoding the pair gives back the optional argument |
| CameraApi.MoveTo | Assets/Wrld/Scripts/Camera/CameraApi.cs:191-220 | Throws without a controlled camera; otherwise unanimated, interest altitude 0, no duration, jump allowed. Each optional gives its value and a set flag, or 0.0 and a cleared flag when absent |
| CameraApi.AnimateTo | Assets/Wrld/Scripts/Camera/CameraApi.cs:255-284 | Throws without a controlled camera; otherwise animated, with `jumpIfFarAway` forwarded unchanged. Distance, heading, tilt and duration each give their value and a set flag, or 0.0 and a cleared flag when absent |
| CameraApi.MoveToIsUnanimatedAnimateTo | Assets/Wrld/Scripts/Camera/CameraApi.cs:191-284 | `MoveTo` issues the block of `AnimateTo` with no duration and jumping, unanimated |
| CameraApi.MoveToPosition | Assets/Wrld/Scripts/Camera/CameraApi.cs:228-243 | Solves tilt, heading and distance and moves with all three present |
| CameraApi.AnimateToPosition | Assets/Wrld/Scripts/Camera/CameraApi.cs:294-306 | Solves tilt, heading and distance and animates with all three present |
| CameraApi.Update | Assets/Wrld/Scripts/Camera/CameraApi.cs:171-180 | Does nothing exactly when no camera is controlled; otherwise input handling, then the native state applied to that camera |
| CameraApi.OnCameraEvent | Assets/Wrld/Scripts/Camera/CameraApi.cs:327-385 | Throws without a controller; TransitionStart sets the flag, TransitionEnd clears it, any other event changes nothing |
| CameraApi.OnCameraEvents | Assets/Wrld/Scripts/Camera/CameraApi.cs:372-385 | Events never change the controlled camera |
| CameraApi.TransitionFlagFollowsLastTransition | Assets/Wrld/Scripts/Camera/CameraApi.cs:327-385 | After any event stream the flag reports the last transition event, or keeps its value if there was none |
| CameraApi.OnCameraEventsSplit | Assets/Wrld/Scripts/Camera/CameraApi.cs:372-385 | Delivering a stream and then one more event is delivering the longer stream |
| Api.ToLowerChar | Assets/Wrld/API/Api.cs:60 | The result is never an upper-case ASCII letter, and non-letters are kept |
| Api.ToLower | Assets/Wrld/API/Api.cs:60 | Same length, lowered character by character |
| Api.ToLowerIdempotent | Assets/Wrld/API/Api.cs:60 | Lowering twice is lowering once |
| Api.ContainsAtOffset | Assets/Wrld/API/Api.cs:60 | An occurrence at any offset is found |
| Api.ContainsHasOffset | Assets/Wrld/API/Api.cs:60 | Conversely, a found substring occurs at some offset |
| Api.SwallowsNameInAnyCase | Assets/Wrld/API/Api.cs:58-75 | A message naming "streamalpha" in any letter case is swallowed in a 32-bit process |
| Api.SwallowsMixedCaseName | Assets/Wrld/API/Api.cs:58-75 | "StreamAlpha" is swallowed in a 32-bit process |
| Api.SwallowsExactlyWhenNamed | Assets/Wrld/API/Api.cs:58-75 | The error is swallowed exactly in a 32-bit process whose lower-cased message contains "streamalpha" at some offset; every other message is rethrown |
| Api.RethrowsOtherwise | Assets/Wrld/API/Api.cs:58-75 | In a 64-bit process, or with a message too short to name the binary, the error is rethrown |
| Api.Construct | Assets/Wrld/API/Api.cs:45-77 | The key is checked before anything is built; a missing DLL is swallowed (no implementation) or rethrown; flags come from the configuration |
| Api.Create | Assets/Wrld/API/Api.cs:86-96 | Sets the instance only when there was none and construction succeeds; an existing instance gives ArgumentException; on any exception the instance is unchanged |
| Api.Destroy | Assets/Wrld/API/Api.cs:123-127 | Clears the instance when it has an implementation; otherwise throws and leaves it |
| Api.CreateDestroyCreate | Assets/Wrld/API/Api.cs:86-127 | A second create fails and keeps the first; after destroy, create succeeds again |
| Api.SwallowedInstanceCannotBeDestroyed | Assets/Wrld/API/Api.cs:58-127 | On the swallowed path, destroy throws and the instance stays, so create keeps refusing |
| Api.UpdateCollisions | Assets/Wrld/API/Api.cs:187-194 | All three flags are overwritten first and then forwarded; without an implementation the forwarding throws after the overwrite |
| Api.UpdateCollisionsLastCallWins | Assets/Wrld/API/Api.cs:187-194 | The last call decides the flags |
| Api.ForwardedCollisionsReachScene | Assets/Wrld/API/Api.cs:187-194 | The forwarded flags select the scene's terrain, road and building policies and leave highlights alone |
| ApiKeyHelpers.AppearsValid | Assets/Wrld/Scripts/Utilities/APIKeyHelpers.cs:20-23 | A valid key is 32 characters, or 33 with a final line feed |
| ApiKeyHelpers.MatchesClassThenEndShape | Assets/Wrld/Scripts/Utilities/APIKeyHelpers.cs:22 | The reference matcher accepts exactly n class characters then the end or one final line feed |
| ApiKeyHelpers.AppearsValidIsPattern | Assets/Wrld/Scripts/Utilities/APIKeyHelpers.cs:20-23 | `AppearsValid` equals the anchored pattern's matcher |
| ApiKeyHelpers.AppearsValidExamples | Assets/Wrld/Scripts/Utilities/APIKeyHelpers.cs:20-23 | 32 lower-case hex digits pass, with or without one final line feed; two line feeds, an upper-case digit or 31 characters fail |
| ApiKeyHelpers.CacheAPIKey | Assets/Wrld/Scripts/Utilities/APIKeyHelpers.cs:7-13 | A valid key is cached; an invalid one leaves the cache |
| ApiKeyHelpers.GetCachedAPIKey | Assets/Wrld/Scripts/Utilities/APIKeyHelpers.cs:15-18 | Null exactly for the initial cache; caching the valid key it returns again changes nothing |
| ApiKeyHelpers.CacheAPIKeyIdempotent | Assets/Wrld/Scripts/Utilities/APIKeyHelpers.cs:7-13 | Caching the same key twice is caching it once |
| ApiKeyHelpers.CacheAllSplit | Assets/Wrld/Scripts/Utilities/APIKeyHelpers.cs:7-13 | Caching a sequence and then one more key is caching the longer sequence |
| ApiKeyHelpers.CachedKeyIsLastValid | Assets/Wrld/Scripts/Utilities/APIKeyHelpers.cs:7-25 | From null, the cache holds the last valid key offered, and never an invalid one |
| ThreadService.NewThreadService | Assets/Wrld/Scripts/Concurrency/ThreadService.cs:12-25 | A new service has an empty table and the counter at 0, and is a valid state |
| ThreadService.Candidate | Assets/Wrld/Scripts/Concurrency/ThreadService.cs:69-80 | Every counter value is a 32-bit value |
| ThreadService.CandidateIsWrap | Assets/Wrld/Scripts/Concurrency/ThreadService.cs:75 | The j-th counter value is start + j wrapped to 32 bits |
| ThreadService.CandidateIsNew | Assets/Wrld/Scripts/Concurrency/ThreadService.cs:69-80 | The counter does not repeat a value within 2^32 steps |
| ThreadService.GenerateThreadID | Assets/Wrld/Scripts/Concurrency/ThreadService.cs:69-80 | The id is not in the table and not -1; it is the first counter value from the start that is free, and the counter ends one past it (wrapped) |
| ThreadService.CounterPassesReturnedHandle | Assets/Wrld/Scripts/Concurrency/ThreadService.cs:75 | Below `int.MaxValue` the counter ends above the returned id; at it, the counter wraps to `int.MinValue` |
| ThreadService.CreateThread | Assets/Wrld/Scripts/Concurrency/ThreadService.cs:33-48 | The handle is the first free value of the counter (every earlier candidate was taken), the counter ends one past it with 32-bit wrap-around, exactly that fresh handle is added to the table, and joining it gives the thread back with the old table |
| ThreadService.JoinThread | Assets/Wrld/Scripts/Concurrency/ThreadService.cs:56-67 | Throws for an id not in the table; otherwise removes exactly that id and returns its thread |
| ThreadService.JoinTwiceFails | Assets/Wrld/Scripts/Concurrency/ThreadService.cs:56-67 | Joining keeps the table valid, and a handle can be joined only once |

## Left out

- Native calls, P/Invoke and marshaling. Native calls are returned as values, and marshaled structures arrive already decoded. The native `SetView` result (`bool`) is not modelled: `MoveTo`/`AnimateTo` return the argument block they issue.
- Floating-point geometry: ECEF and lat/long conversions, tangent bases, `Quaternion.LookRotation`, the tilt/heading/distance solver and the transform-update strategies. These are function parameters, and rotations are free terms.
- `GameObjectRepository`, `MaterialRepository`, `MeshUploader`, `ConfigParams` and `ApiImplementation` are not part of this model. The repository is a map from id to record; the others are function parameters or plain values.
- The Unity object lifecycle: `Object.Destroy`, component attachment, and the error-message object built when the DLL error is swallowed.
- `GeographicTransform.GetLatLong` (`GeographicTransform.cs:123-126`): a floating-point ECEF-to-lat/long conversion.
- `BuildingsApi.TryGetAltitude`: a native query with no bookkeeping.
- The camera input handler, the `OnTransitionStart`/`OnTransitionEnd` user events and the native camera state copy. `Update` returns them as steps.
- Threads themselves: starting, joining and `lock` in `ThreadService`. Only the handle table is modelled, sequentially.
- ThreadService.GenerateThreadID: requires that a free handle exists (fewer than 2^32 - 1 threads). The source loops forever otherwise, and the precondition is what makes the loop end.
- ThreadService.CreateThread: requires the same free handle as `GenerateThreadID`, for the same reason.
- BuildingsApi.GetBuildingAtLocation: requires the counter to be a 32-bit value (`Int32.InRange`). It starts at 0 and only ever advances by a 32-bit increment, so every reachable counter is one.
- BuildingsApi.HighlightBuildingAtLocation: requires the same of its own counter, for the same reason.
- Api.ToLower: lowers ASCII letters only. Culture-specific case mapping of other characters is not modelled.
- MapGameObjectScene.GetStreamerFromName: `StartsWith("Raster")` and `StartsWith("Terrain")` use the current culture in .NET. The model compares characters one by one (an ordinal comparison). Culture-specific comparison rules are not modelled.
- Geometry.Sound: the tangent-basis helpers are parameters, and the model assumes of them only that building a basis from a point and a heading, or moving a basis to a point, puts the basis at that point. `GeographicTransform` states its positions under that assumption.
- Null references are not modelled: strings (a null key, id or message), arrays (a null `meshes` array, which would throw at `meshes[0]` in GameObjectStreamer.cs:31) and the unset `ms_instance`, which makes the static `CreateThread` and `JoinThread` throw NullReferenceException before construction (ThreadService.cs:30, 53). Every string and array is a value, and the thread service is called through an instance.

=== FILE: api.dfy ===
/** `Api`: the process-wide singleton `Api.Instance`. `Create` builds it once
    (after the API-key check and the native implementation's construction,
    whose missing-DLL error is swallowed in one configuration), `Destroy`
    tears it down, and `UpdateCollisions` records and forwards the collision
    flags. */
module Api {
  import opened Wrappers
  import ApiKeyHelpers
  import MS = MapGameObjectScene
  import GameObjectFactory

  /** An `Api` object: its collision flags, and whether its
      `ApiImplementation` was built (`false` when the missing-DLL error was
      swallowed and `m_implementation` stayed null). */
  datatype ApiObject = ApiObject(collisionStates: MS.CollisionConfig, hasImplementation: bool)

  /** `Api.Instance`: `None` is null. */
  type Instance = Option<ApiObject>

  /** How constructing `ApiImplementation` went, which the native plugin
      decides: built, or a `DllNotFoundException` carrying a message. */
  datatype ImplementationOutcome = Built | DllNotFound(message: string)

  /** `char.ToLower` on ASCII letters; every other character is kept. */
  function ToLowerChar(ch: char): (r: char)
    ensures !('A' <= r <= 'Z')
    ensures !('A' <= ch <= 'Z') ==> r == ch
  {
    if 'A' <= ch <= 'Z' then (ch as int + 32) as char else ch
  }

  /** `string.ToLower`, character by character. */
  function ToLower(s: string): (r: string)
    ensures |r| == |s|
    ensures forall i :: 0 <= i < |s| ==> r[i] == ToLowerChar(s[i])
    decreases |s|
  {
    if s == [] then [] else [ToLowerChar(s[0])] + ToLower(s[1..])
  }

  /** Lower-casing twice is lower-casing once. */
  lemma ToLowerIdempotent(s: string)
    ensures ToLower(ToLower(s)) == ToLower(s)
  {
  }

  /** `string.Contains` (ordinal): `sub` starts at the first position of
      `s` or somewhere after it. */
  predicate Contains(s: string, sub: string)
    decreases |s|
  {
    |sub| <= |s| && (s[..|sub|] == sub || Contains(s[1..], sub))
  }

  /** `sub` occurs in `s` starting at offset `i`. */
  predicate OccursAt(s: string, sub: string, i: nat) {
    i + |sub| <= |s| && s[i..i + |sub|] == sub
  }

  /** An occurrence of `sub` at any offset makes `Contains` hold. */
  lemma {:induction false} ContainsAtOffset(s: string, sub: string, i: nat)
    requires OccursAt(s, sub, i)
    ensures Contains(s, sub)
    decreases i
  {
    if i > 0 {
      assert s[1..][i - 1..i - 1 + |sub|] == s[i..i + |sub|];
      ContainsAtOffset(s[1..], sub, i - 1);
    }
  }

  /** Conversely, `Contains` holds only where an occurrence starts at some offset. */
  lemma {:induction false} ContainsHasOffset(s: string, sub: string)
    requires Contains(s, sub)
    ensures exists i: nat :: OccursAt(s, sub, i)
    decreases |s|
  {
    if s[..|sub|] == sub {
      assert OccursAt(s, sub, 0);
    } else {
      ContainsHasOffset(s[1..], sub);
      var j: nat :| OccursAt(s[1..], sub, j);
      assert s[j + 1..j + 1 + |sub|] == s[1..][j..j + |sub|];
      assert OccursAt(s, sub, j + 1);
    }
  }

  /** The native binary's name as it appears in the loader's message. */
  const WrldBinaryName := "streamalpha"

  /** The pointer size of a 32-bit process: `IntPtr.Size == 4`. */
  const Pointer32 := 4

  /** The swallow condition: the missing DLL is the WRLD binary (the message
      mentions it in any letter case) and the process is 32-bit. */
  predicate SwallowsDllError(message: string, pointerSize: int) {
    Contains(ToLower(message), WrldBinaryName) && pointerSize == Pointer32
  }

  /** A message naming the binary, in any letter case, is swallowed in a
      32-bit process. */
  lemma SwallowsNameInAnyCase(message: string, i: nat)
    requires i + |WrldBinaryName| <= |message|
    requires forall k :: 0 <= k < |WrldBinaryName| ==> ToLowerChar(message[i + k]) == WrldBinaryName[k]
    ensures SwallowsDllError(message, Pointer32)
  {
    var lowered := ToLower(message);
    assert lowered[i..i + |WrldBinaryName|] == WrldBinaryName;
    ContainsAtOffset(lowered, WrldBinaryName, i);
  }

  lemma SwallowsMixedCaseName()
    ensures SwallowsDllError("StreamAlpha", Pointer32)
  {
    SwallowsNameInAnyCase("StreamAlpha", 0);
  }

  /** In a 64-bit process, or for a message too short to name the binary,
      the error is rethrown. */
  lemma RethrowsOtherwise(message: string, pointerSize: int)
    requires pointerSize != Pointer32 || |message| < |WrldBinaryName|
    ensures !SwallowsDllError(message, pointerSize)
  {
  }

  /** The error is swallowed exactly in a 32-bit process whose lower-cased
      message names the binary at some offset; every other message is
      rethrown. */
  lemma SwallowsExactlyWhenNamed(message: string, pointerSize: int)
    ensures SwallowsDllError(message, pointerSize) <==>
      pointerSize == Pointer32 && exists i: nat :: OccursAt(ToLower(message), WrldBinaryName, i)
  {
    var lowered := ToLower(message);
    if Contains(lowered, WrldBinaryName) {
      ContainsHasOffset(lowered, WrldBinaryName);
      var j: nat :| OccursAt(lowered, WrldBinaryName, j);
      assert OccursAt(ToLower(message), WrldBinaryName, j);
    } else if exists i: nat :: OccursAt(lowered, WrldBinaryName, i) {
      var i: nat :| OccursAt(lowered, WrldBinaryName, i);
      ContainsAtOffset(lowered, WrldBinaryName, i);
      assert false;
    }
  }

  /** The private constructor: the flags are taken from the configuration,
      the key is checked before anything is built, and a missing DLL is
      either swallowed, leaving no implementation, or rethrown. */
  function Construct(apiKey: string, collisions: MS.CollisionConfig,
                     outcome: ImplementationOutcome, pointerSize: int): (r: Result<ApiObject>)
    ensures !ApiKeyHelpers.AppearsValid(apiKey) ==> r == Failure(InvalidApiKeyException)
    ensures r.Success? ==> r.value.collisionStates == collisions
    ensures ApiKeyHelpers.AppearsValid(apiKey) ==>
      match outcome
      case Built => r == Success(ApiObject(collisions, true))
      case DllNotFound(m) =>
        if SwallowsDllError(m, pointerSize) then r == Success(ApiObject(collisions, false))
        else r == Failure(DllNotFoundException)
  {
    if !ApiKeyHelpers.AppearsValid(apiKey) then Failure(InvalidApiKeyException)
    else
      match outcome
      case Built => Success(ApiObject(collisions, true))
      case DllNotFound(m) =>
        if SwallowsDllError(m, pointerSize) then Success(ApiObject(collisions, false))
        else Failure(DllNotFoundException)
  }

  /** `Create`: only when there is no instance yet. A throwing constructor
      never reaches the assignment, so on any exception `Instance` keeps its
      previous value. */
  function Create(instance: Instance, apiKey: string, collisions: MS.CollisionConfig,
                  outcome: ImplementationOutcome, pointerSize: int): (r: Partial<Instance>)
    ensures instance.Some? ==> r == Partial(instance, Some(ArgumentException))
    ensures r.thrown.Some? ==> r.state == instance
    ensures r.thrown.None? <==>
      && instance.None?
      && ApiKeyHelpers.AppearsValid(apiKey)
      && (outcome.Built? || SwallowsDllError(outcome.message, pointerSize))
    ensures r.thrown.None? ==>
      r.state == Some(ApiObject(collisions, outcome.Built?))
    ensures instance.None? && !ApiKeyHelpers.AppearsValid(apiKey) ==>
      r.thrown == Some(InvalidApiKeyException)
  {
    if instance.Some? then Partial(instance, Some(ArgumentException))
    else
      match Construct(apiKey, collisions, outcome, pointerSize)
      case Success(api) => Partial(Some(api), None)
      case Failure(e) => Partial(instance, Some(e))
  }

  /** `Destroy`, called on the current instance: the implementation is torn
      down and `Instance` cleared. With no instance the call itself throws;
      with no implementation `m_implementation.Destroy()` throws before the
      assignment, so `Instance` is left as it was. */
  function Destroy(instance: Instance): (r: Partial<Instance>)
    ensures r.thrown.None? <==> instance.Some? && instance.value.hasImplementation
    ensures r.thrown.None? ==> r.state == None
    ensures r.thrown.Some? ==> r.state == instance && r.thrown == Some(NullReferenceException)
  {
    match instance
    case None => Partial(instance, Some(NullReferenceException))
    case Some(api) =>
      if api.hasImplementation then Partial(None, None)
      else Partial(instance, Some(NullReferenceException))
  }

  /** The singleton lifecycle: a second `Create` fails and keeps the first
      instance; after a successful `Destroy` a new `Create` succeeds again. */
  lemma CreateDestroyCreate(apiKey: string, first: MS.CollisionConfig, second: MS.CollisionConfig)
    requires ApiKeyHelpers.AppearsValid(apiKey)
    ensures var created := Create(None, apiKey, first, Built, 8);
      && created == Partial(Some(ApiObject(first, true)), None)
      && Create(created.state, apiKey, second, Built, 8) == Partial(created.state, Some(ArgumentException))
      && Destroy(created.state) == Partial(None, None)
      && Create(Destroy(created.state).state, apiKey, second, Built, 8) ==
         Partial(Some(ApiObject(second, true)), None)
  {
  }

  /** On the swallowed path an instance exists without an implementation,
      and destroying it throws and leaves it in place, so `Create` keeps
      refusing. */
  lemma SwallowedInstanceCannotBeDestroyed(apiKey: string, collisions: MS.CollisionConfig)
    requires ApiKeyHelpers.AppearsValid(apiKey)
    ensures var created := Create(None, apiKey, collisions, DllNotFound("StreamAlpha"), 4);
      && created == Partial(Some(ApiObject(collisions, false)), None)
      && Destroy(created.state) == Partial(created.state, Some(NullReferenceException))
      && Create(Destroy(created.state).state, apiKey, collisions, Built, 4).thrown == Some(ArgumentException)
  {
    SwallowsMixedCaseName();
  }

  /** What `UpdateCollisions` leaves behind: the object with its new flags
      and, when there is an implementation to forward to, the configuration
      handed to `ApiImplementation.UpdateCollision`. */
  datatype CollisionUpdate = CollisionUpdate(api: Partial<ApiObject>, forwarded: Option<MS.CollisionConfig>)

  /** `UpdateCollisions`: the three flags are overwritten first, then
      forwarded; without an implementation the forwarding throws after the
      flags have already changed. */
  function UpdateCollisions(api: ApiObject, terrain: bool, road: bool, buildings: bool): (r: CollisionUpdate)
    ensures r.api.state.collisionStates == MS.CollisionConfig(terrain, road, buildings)
    ensures r.api.state.hasImplementation == api.hasImplementation
    ensures r.forwarded.Some? <==> api.hasImplementation
    ensures r.forwarded.Some? ==> r.forwarded.value == r.api.state.collisionStates
    ensures r.api.thrown.None? <==> api.hasImplementation
    ensures r.api.thrown.Some? ==> r.api.thrown.value == NullReferenceException
  {
    var updated := api.(collisionStates := MS.CollisionConfig(terrain, road, buildings));
    if api.hasImplementation then CollisionUpdate(Partial(updated, None), Some(updated.collisionStates))
    else CollisionUpdate(Partial(updated, Some(NullReferenceException)), None)
  }

  /** Nothing of the earlier flags survives: the last call decides. */
  lemma UpdateCollisionsLastCallWins(api: ApiObject, t1: bool, r1: bool, b1: bool,
                                     t2: bool, r2: bool, b2: bool)
    ensures UpdateCollisions(UpdateCollisions(api, t1, r1, b1).api.state, t2, r2, b2) ==
            UpdateCollisions(api, t2, r2, b2)
  {
  }

  /** The forwarded flags, once they reach a scene, select the policies of
      later terrain, road and building objects and nothing else. */
  lemma ForwardedCollisionsReachScene(api: ApiObject, terrain: bool, road: bool, buildings: bool,
                                      sc: MS.Scene)
    requires api.hasImplementation
    ensures var sent := UpdateCollisions(api, terrain, road, buildings).forwarded.value;
      var after := MS.ChangeCollision(sc, sent);
      && (after.terrain.collisions == GameObjectFactory.NoCollision <==> !terrain)
      && (after.road.collisions == GameObjectFactory.NoCollision <==> !road)
      && (after.building.collisions == GameObjectFactory.NoCollision <==> !buildings)
      && after.highlight == sc.highlight
  {
  }
}

=== FILE: api_key_helpers.dfy ===
/** `APIKeyHelpers`: the format check for WRLD API keys and the process-wide
    cache of the last key that passed it. */
module ApiKeyHelpers {
  import opened Wrappers

  /** The length of a key: `{32}` in the pattern. */
  const KeyLength := 32

  /** The character class `[a-f0-9]`: lower-case hexadecimal only. */
  predicate IsLowerHex(ch: char) {
    ('0' <= ch <= '9') || ('a' <= ch <= 'f')
  }

  /** `Regex.IsMatch(apiKey, "^[a-f0-9]{32}$")`. Without the multiline option
      .NET's `$` matches at the very end of the input and also just before a
      final line feed, so a key followed by one `"\n"` is accepted too. */
  function AppearsValid(apiKey: string): (r: bool)
    ensures r ==> KeyLength <= |apiKey| <= KeyLength + 1
    ensures r && |apiKey| == KeyLength + 1 ==> apiKey[KeyLength] == '\n'
  {
    && (|apiKey| == KeyLength || (|apiKey| == KeyLength + 1 && apiKey[KeyLength] == '\n'))
    && forall i :: 0 <= i < KeyLength ==> IsLowerHex(apiKey[i])
  }

  /** A reference matcher, read off the pattern: `n` more characters of the
      class, then the end of the input or a final line feed. */
  function MatchesClassThenEnd(s: string, n: nat): bool
    decreases n
  {
    if n == 0 then s == [] || s == "\n"
    else |s| > 0 && IsLowerHex(s[0]) && MatchesClassThenEnd(s[1..], n - 1)
  }

  /** What the reference matcher accepts, for any repetition count. */
  lemma {:induction false} MatchesClassThenEndShape(s: string, n: nat)
    ensures MatchesClassThenEnd(s, n) <==>
      && (|s| == n || (|s| == n + 1 && s[n] == '\n'))
      && forall i :: 0 <= i < n ==> IsLowerHex(s[i])
    decreases n
  {
    if n > 0 && |s| > 0 {
      MatchesClassThenEndShape(s[1..], n - 1);
      if |s| == n || |s| == n + 1 {
        assert |s[1..]| >= n - 1;
        if |s| == n + 1 {
          assert s[1..][n - 1] == s[n];
        }
        assert (forall i :: 0 <= i < n ==> IsLowerHex(s[i])) <==>
               IsLowerHex(s[0]) && (forall i :: 0 <= i < n - 1 ==> IsLowerHex(s[1..][i])) by {
          forall i | 0 <= i < n - 1 ensures s[1..][i] == s[i + 1] { }
        }
      }
    }
  }

  /** `AppearsValid` is exactly the anchored pattern. */
  lemma AppearsValidIsPattern(apiKey: string)
    ensures AppearsValid(apiKey) == MatchesClassThenEnd(apiKey, KeyLength)
  {
    MatchesClassThenEndShape(apiKey, KeyLength);
  }

  /** Thirty-two lower-case hex digits pass, with or without one final line
      feed; a second line feed or any upper-case hex digit fails. */
  lemma AppearsValidExamples(h: string, i: nat)
    requires |h| == KeyLength && forall j :: 0 <= j < |h| ==> IsLowerHex(h[j])
    requires i < KeyLength
    ensures AppearsValid(h)
    ensures AppearsValid(h + "\n")
    ensures !AppearsValid(h + "\n\n")
    ensures !AppearsValid(h[..i] + "A" + h[i + 1..])
    ensures !AppearsValid(h[..KeyLength - 1])
  {
    var upper := h[..i] + "A" + h[i + 1..];
    assert upper[i] == 'A';
  }

  /** `ms_cachedApiKey`: null until a valid key is cached. */
  datatype KeyCache = KeyCache(cached: Option<string>)

  const InitialCache := KeyCache(None)

  /** `CacheAPIKey`: an invalid key leaves the cache as it was. */
  function CacheAPIKey(cache: KeyCache, apiKey: string): (r: KeyCache)
    ensures AppearsValid(apiKey) ==> r.cached == Some(apiKey)
    ensures !AppearsValid(apiKey) ==> r == cache
  {
    if AppearsValid(apiKey) then KeyCache(Some(apiKey)) else cache
  }

  /** `GetCachedAPIKey`: null exactly for the initial cache, and caching the
      valid key it returns again changes nothing. */
  function GetCachedAPIKey(cache: KeyCache): (r: Option<string>)
    ensures r.None? <==> cache == InitialCache
    ensures r.Some? && AppearsValid(r.value) ==> CacheAPIKey(cache, r.value) == cache
  {
    cache.cached
  }

  /** Caching the same key twice is the same as caching it once. */
  lemma CacheAPIKeyIdempotent(cache: KeyCache, apiKey: string)
    ensures CacheAPIKey(CacheAPIKey(cache, apiKey), apiKey) == CacheAPIKey(cache, apiKey)
  {
  }

  /** A sequence of `CacheAPIKey` calls, in order. */
  function CacheAll(cache: KeyCache, keys: seq<string>): KeyCache
    decreases |keys|
  {
    if keys == [] then cache else CacheAll(CacheAPIKey(cache, keys[0]), keys[1..])
  }

  /** The last key in the sequence that appears valid. */
  function LastValid(keys: seq<string>): Option<string>
    decreases |keys|
  {
    if keys == [] then None
    else if AppearsValid(keys[|keys| - 1]) then Some(keys[|keys| - 1])
    else LastValid(keys[..|keys| - 1])
  }

  lemma {:induction false} CacheAllSplit(cache: KeyCache, keys: seq<string>, last: string)
    ensures CacheAll(cache, keys + [last]) == CacheAPIKey(CacheAll(cache, keys), last)
    decreases |keys|
  {
    if keys == [] {
      assert [last][1..] == [];
    } else {
      assert (keys + [last])[1..] == keys[1..] + [last];
      CacheAllSplit(CacheAPIKey(cache, keys[0]), keys[1..], last);
    }
  }

  /** From the initial null, the cache always holds the last valid key
      offered, and so never an invalid one. */
  lemma {:induction false} CachedKeyIsLastValid(keys: seq<string>)
    ensures GetCachedAPIKey(CacheAll(InitialCache, keys)) == LastValid(keys)
    ensures LastValid(keys).Some? ==> AppearsValid(LastValid(keys).value)
    decreases |keys|
  {
    if keys != [] {
      var init := keys[..|keys| - 1];
      assert keys == init + [keys[|keys| - 1]];
      CacheAllSplit(InitialCache, init, keys[|keys| - 1]);
      CachedKeyIsLastValid(init);
    }
  }
}

=== FILE: buildings_api.dfy ===
/** `BuildingsApi`: correlates the native plugin's asynchronous building and
    highlight responses with the requests that caused them, and feeds the
    highlight geometry to the highlight streamer in two phases (upload, then
    reveal on the next `AddNewHighlights`).

    Native calls are outputs (`NativeCall`); user callbacks are outputs too
    (`Invocation`): the model records that a callback is invoked and with
    what, not what user code does with it. Marshaled structures arrive
    already decoded. */
module BuildingsApi {
  import opened Wrappers
  import opened Decimal
  import opened Geometry
  import opened GameObjectFactory
  import Int32
  import GS = GameObjectStreamer

  /** `Building`. */
  datatype Building = Building(buildingId: string, baseAltitude: real, topAltitude: real, centroid: LatLong)

  /** `Highlight`: the handle returned to the caller, the only way to clear. */
  datatype Highlight = Highlight(highlightId: string, highlightRequestId: int)

  /** A user callback, by identity. */
  type CallbackRef = nat

  datatype BuildingRequest = BuildingRequest(callback: CallbackRef)
  datatype HighlightRequest = HighlightRequest(material: Material, callback: CallbackRef)

  /** The native calls the correlator issues. */
  datatype NativeCall =
    | NativeGetBuildingAtLocation(location: LatLongAltitude, buildingRequestId: int)
    | NativeHighlightBuildingAtLocation(location: LatLongAltitude, highlightRequestId: int)
    | NativeClearHighlight(highlightId: string)

  /** The user callbacks the correlator invokes. */
  datatype Invocation =
    | BuildingReceived(callback: CallbackRef, buildingReceived: bool, building: Building)
    | HighlightReceived(callback: CallbackRef, highlightReceived: bool, handle: Option<Highlight>)

  /** `HighlightInterop` after marshaling: the ECEF origin, `VertexCount`
      vertices as 3 floats each, and `IndexCount` raw 16-bit indices. */
  datatype HighlightInterop = HighlightInterop(
    originEcef: Vec3, vertexCount: int, indexCount: int, positions: seq<real>, indices: seq<Bits16>)

  /** The layout the native side promises: the buffers hold exactly the counts. */
  predicate Marshaled(h: HighlightInterop) {
    && 0 <= h.vertexCount && |h.positions| == 3 * h.vertexCount
    && 0 <= h.indexCount && |h.indices| == h.indexCount
  }

  /** The state: the two pending-request dictionaries, the highlight streamer
      (shared with the scene), the ids awaiting reveal and the two counters. */
  datatype Buildings = Buildings(
    buildingRequests: map<int, BuildingRequest>,
    highlightRequests: map<int, HighlightRequest>,
    highlightStreamer: GS.Streamer,
    highlightIdsToAdd: seq<string>,
    nextBuildingRequestId: int,
    nextHighlightRequestId: int)

  /** The constructor. */
  function NewBuildings(highlightStreamer: GS.Streamer): (b: Buildings)
    ensures Valid(b)
    ensures b.buildingRequests == map[] && b.highlightRequests == map[] && b.highlightIdsToAdd == []
    ensures b.highlightStreamer == highlightStreamer
  {
    Buildings(map[], map[], highlightStreamer, [], 0, 0)
  }

  /** Every pending id was issued by the counter: it lies below the counter's
      current value, which has not yet wrapped. */
  ghost predicate Valid(b: Buildings) {
    && 0 <= b.nextBuildingRequestId <= Int32.MaxValue
    && 0 <= b.nextHighlightRequestId <= Int32.MaxValue
    && (forall id :: id in b.buildingRequests ==> 0 <= id < b.nextBuildingRequestId)
    && (forall id :: id in b.highlightRequests ==> 0 <= id < b.nextHighlightRequestId)
  }

  /** The altitude the `LatLong` overloads forward. */
  const UnknownAltitude: real := -1.0

  // ---------------------------------------------------------------------
  // Requests

  /** `GetBuildingAtLocation(LatLongAltitude, callback)`: stores the request
      under the counter's value (a duplicate `Dictionary.Add` throws), issues
      the native query with that id, then increments the counter. */
  function GetBuildingAtLocation(b: Buildings, location: LatLongAltitude,
                                 callback: CallbackRef): (r: Result<(Buildings, NativeCall)>)
    requires Int32.InRange(b.nextBuildingRequestId)
    ensures r.Failure? <==> b.nextBuildingRequestId in b.buildingRequests
    ensures r.Failure? ==> r.error == ArgumentException
    ensures r.Success? ==>
      var (b', call) := r.value;
      && b'.buildingRequests == b.buildingRequests[b.nextBuildingRequestId := BuildingRequest(callback)]
      && b'.nextBuildingRequestId == Int32.Wrap(b.nextBuildingRequestId + 1)
      && call == NativeGetBuildingAtLocation(location, b.nextBuildingRequestId)
      && b' == b.(buildingRequests := b'.buildingRequests, nextBuildingRequestId := b'.nextBuildingRequestId)
  {
    var id := b.nextBuildingRequestId;
    if id in b.buildingRequests then Failure(ArgumentException)
    else
      Success((b.(buildingRequests := b.buildingRequests[id := BuildingRequest(callback)],
                  nextBuildingRequestId := Int32.Wrap(id + 1)),
               NativeGetBuildingAtLocation(location, id)))
  }

  /** `GetBuildingAtLocation(LatLong, callback)`: altitude -1. */
  function GetBuildingAtLatLong(b: Buildings, location: LatLong,
                                callback: CallbackRef): (r: Result<(Buildings, NativeCall)>)
    requires Int32.InRange(b.nextBuildingRequestId)
    ensures r == GetBuildingAtLocation(b, LatLongAltitude(location.latitudeDegrees, location.longitudeDegrees, -1.0), callback)
  {
    GetBuildingAtLocation(b, WithAltitude(location, UnknownAltitude), callback)
  }

  /** `HighlightBuildingAtLocation(LatLongAltitude, material, callback)`. */
  function HighlightBuildingAtLocation(b: Buildings, location: LatLongAltitude, material: Material,
                                       callback: CallbackRef): (r: Result<(Buildings, NativeCall)>)
    requires Int32.InRange(b.nextHighlightRequestId)
    ensures r.Failure? <==> b.nextHighlightRequestId in b.highlightRequests
    ensures r.Failure? ==> r.error == ArgumentException
    ensures r.Success? ==>
      var (b', call) := r.value;
      && b'.highlightRequests == b.highlightRequests[b.nextHighlightRequestId := HighlightRequest(material, callback)]
      && b'.nextHighlightRequestId == Int32.Wrap(b.nextHighlightRequestId + 1)
      && call == NativeHighlightBuildingAtLocation(location, b.nextHighlightRequestId)
      && b' == b.(highlightRequests := b'.highlightRequests, nextHighlightRequestId := b'.nextHighlightRequestId)
  {
    var id := b.nextHighlightRequestId;
    if id in b.highlightRequests then Failure(ArgumentException)
    else
      Success((b.(highlightRequests := b.highlightRequests[id := HighlightRequest(material, callback)],
                  nextHighlightRequestId := Int32.Wrap(id + 1)),
               NativeHighlightBuildingAtLocation(location, id)))
  }

  /** `HighlightBuildingAtLocation(LatLong, material, callback)`: altitude -1. */
  function HighlightBuildingAtLatLong(b: Buildings, location: LatLong, material: Material,
                                      callback: CallbackRef): (r: Result<(Buildings, NativeCall)>)
    requires Int32.InRange(b.nextHighlightRequestId)
    ensures r == HighlightBuildingAtLocation(b, LatLongAltitude(location.latitudeDegrees, location.longitudeDegrees, -1.0),
                                             material, callback)
  {
    HighlightBuildingAtLocation(b, WithAltitude(location, UnknownAltitude), material, callback)
  }

  /** In a valid state below the 32-bit limit a request never collides: it
      is stored under a fresh id, the counter moves up by exactly one, and
      the state stays valid. */
  lemma RequestsNeverCollide(b: Buildings, location: LatLongAltitude, material: Material, callback: CallbackRef)
    requires Valid(b)
    ensures b.nextBuildingRequestId < Int32.MaxValue ==>
      var r := GetBuildingAtLocation(b, location, callback);
      && r.Success?
      && b.nextBuildingRequestId !in b.buildingRequests
      && r.value.0.nextBuildingRequestId == b.nextBuildingRequestId + 1
      && Valid(r.value.0)
    ensures b.nextHighlightRequestId < Int32.MaxValue ==>
      var r := HighlightBuildingAtLocation(b, location, material, callback);
      && r.Success?
      && b.nextHighlightRequestId !in b.highlightRequests
      && r.value.0.nextHighlightRequestId == b.nextHighlightRequestId + 1
      && Valid(r.value.0)
  {
  }

  /** `ClearHighlight`: nothing for a null handle; otherwise asks the native
      side to clear the highlight and drops the request (dropping an absent
      id is harmless). */
  function ClearHighlight(b: Buildings, handle: Option<Highlight>): (r: (Buildings, seq<NativeCall>))
    ensures handle.None? ==> r == (b, [])
    ensures handle.Some? ==>
      && r.1 == [NativeClearHighlight(handle.value.highlightId)]
      && r.0.highlightRequests.Keys == b.highlightRequests.Keys - {handle.value.highlightRequestId}
      && (forall id :: id in r.0.highlightRequests ==> r.0.highlightRequests[id] == b.highlightRequests[id])
      && r.0 == b.(highlightRequests := r.0.highlightRequests)
  {
    match handle
    case None => (b, [])
    case Some(h) =>
      (b.(highlightRequests := b.highlightRequests - {h.highlightRequestId}),
       [NativeClearHighlight(h.highlightId)])
  }

  // ---------------------------------------------------------------------
  // Responses

  /** `OnBuildingReceived`: the dictionary indexer throws for an id with no
      pending request; otherwise the request is removed and its callback
      invoked once with the decoded building. */
  function OnBuildingReceived(b: Buildings, buildingReceived: bool, building: Building,
                              buildingRequestId: int): (r: Result<(Buildings, Invocation)>)
    ensures r.Failure? <==> buildingRequestId !in b.buildingRequests
    ensures r.Failure? ==> r.error == KeyNotFoundException
    ensures r.Success? ==>
      && r.value.0 == b.(buildingRequests := b.buildingRequests - {buildingRequestId})
      && r.value.1 == BuildingReceived(b.buildingRequests[buildingRequestId].callback, buildingReceived, building)
  {
    if buildingRequestId !in b.buildingRequests then Failure(KeyNotFoundException)
    else
      var request := b.buildingRequests[buildingRequestId];
      Success((b.(buildingRequests := b.buildingRequests - {buildingRequestId}),
               BuildingReceived(request.callback, buildingReceived, building)))
  }

  /** `OnHighlightReceived`: throws for an id with no pending request. On
      success the request stays pending and the callback gets a handle
      holding (highlight id, request id); on failure the request is removed
      and the callback gets a null handle. */
  function OnHighlightReceived(b: Buildings, highlightReceived: bool, highlightId: string,
                               highlightRequestId: int): (r: Result<(Buildings, Invocation)>)
    ensures r.Failure? <==> highlightRequestId !in b.highlightRequests
    ensures r.Failure? ==> r.error == KeyNotFoundException
    ensures r.Success? ==>
      var callback := b.highlightRequests[highlightRequestId].callback;
      if highlightReceived then
        && r.value.0 == b
        && r.value.1 == HighlightReceived(callback, true, Some(Highlight(highlightId, highlightRequestId)))
      else
        && r.value.0 == b.(highlightRequests := b.highlightRequests - {highlightRequestId})
        && r.value.1 == HighlightReceived(callback, false, None)
  {
    if highlightRequestId !in b.highlightRequests then Failure(KeyNotFoundException)
    else
      var request := b.highlightRequests[highlightRequestId];
      if highlightReceived then
        Success((b, HighlightReceived(request.callback, true, Some(Highlight(highlightId, highlightRequestId)))))
      else
        Success((b.(highlightRequests := b.highlightRequests - {highlightRequestId}),
                 HighlightReceived(request.callback, false, None)))
  }

  /** A response for an id that was never issued is a desynchronisation and
      surfaces as an exception, for both kinds. */
  lemma UnissuedResponseIsFatal(b: Buildings, received: bool, building: Building, highlightId: string, id: int)
    requires Valid(b)
    ensures id < 0 || id >= b.nextBuildingRequestId ==>
      OnBuildingReceived(b, received, building, id) == Failure(KeyNotFoundException)
    ensures id < 0 || id >= b.nextHighlightRequestId ==>
      OnHighlightReceived(b, received, highlightId, id) == Failure(KeyNotFoundException)
  {
  }

  // ---------------------------------------------------------------------
  // Highlight geometry

  /** `GetHighlightGameObjectId`: the highlight id followed by the decimal
      mesh-part id. */
  function GetHighlightGameObjectId(highlightId: string, meshPartId: nat): (r: string)
    ensures |r| > |highlightId| && r[..|highlightId|] == highlightId
    ensures Canonical(r[|highlightId|..]) && ParseDigits(r[|highlightId|..]) == meshPartId
  {
    ParseNatToString(meshPartId);
    var r := highlightId + NatToString(meshPartId);
    assert r[|highlightId|..] == NatToString(meshPartId);
    r
  }

  /** The parts of one highlight get distinct ids. */
  lemma PartIdsDistinctWithinHighlight(highlightId: string, a: nat, b: nat)
    ensures GetHighlightGameObjectId(highlightId, a) == GetHighlightGameObjectId(highlightId, b) <==> a == b
  {
  }

  /** Across highlights the concatenation is ambiguous: a highlight id that
      ends in a digit can produce the same part id as a shorter one. */
  lemma PartIdsCanCollideAcrossHighlights()
    ensures GetHighlightGameObjectId("H1", 2) == GetHighlightGameObjectId("H", 12)
  {
    assert NatToString(2) == "2";
    assert NatToString(1) == "1";
    assert NatToString(12) == "12";
  }

  /** A raw 16-bit pattern, as its unsigned value. */
  type Bits16 = x: int | 0 <= x < 0x1_0000

  /** `(int) Marshal.ReadInt16(...)`: the raw 16 bits read as a signed
      (two's-complement) value. */
  function Int16Value(raw: Bits16): (v: int)
    ensures -0x8000 <= v < 0x8000
    ensures raw < 0x8000 ==> v == raw
    ensures raw >= 0x8000 ==> v < 0 && v == raw - 0x1_0000
  {
    if raw < 0x8000 then raw else raw - 0x1_0000
  }

  /** The 16-bit two's-complement encoding of a value in range. */
  function Int16Bits(v: int): Bits16
    requires -0x8000 <= v < 0x8000
  {
    if v >= 0 then v else v + 0x1_0000
  }

  /** Reading a 16-bit index and encoding it back are inverse. */
  lemma Int16RoundTrip(raw: Bits16, v: int)
    requires -0x8000 <= v < 0x8000
    ensures Int16Bits(Int16Value(raw)) == raw
    ensures Int16Value(Int16Bits(v)) == v
  {
  }

  /** `CreateHighlightMesh`: vertex i is floats (3i, 3i+1, 3i+2) of the
      position buffer; index i is the i-th raw index as a signed 16-bit
      value, so raw values of 32768 and above become negative. */
  function CreateHighlightMesh(meshName: string, h: HighlightInterop): (m: Mesh)
    requires Marshaled(h)
    ensures m.name == meshName
    ensures |m.vertices| == h.vertexCount && |m.triangles| == h.indexCount
    ensures forall i :: 0 <= i < |m.vertices| ==>
      m.vertices[i] == Vec3(h.positions[3 * i], h.positions[3 * i + 1], h.positions[3 * i + 2])
    ensures forall i :: 0 <= i < |m.triangles| ==> -0x8000 <= m.triangles[i] < 0x8000
    ensures forall i :: 0 <= i < |m.triangles| ==> Int16Bits(m.triangles[i]) == h.indices[i]
  {
    var vertices := seq(h.vertexCount, i requires 0 <= i < h.vertexCount =>
      Vec3(h.positions[3 * i], h.positions[3 * i + 1], h.positions[3 * i + 2]));
    var triangles := seq(h.indexCount, i requires 0 <= i < h.indexCount => Int16Value(h.indices[i]));
    Mesh(meshName, vertices, triangles)
  }

  /** The material the highlight material name resolves through before the
      request's own material replaces it. */
  const HighlightMaterialName := "highlight"

  /** `GetObjects(id)[0].GetComponent<MeshRenderer>().sharedMaterial = material`:
      the streamer hands out the object itself, so the assignment changes the
      first object of the stored record. */
  function SetFirstMaterial(s: GS.Streamer, id: string, material: Material): (r: GS.Streamer)
    requires id in s.records && |s.records[id].objects| > 0
    ensures r.records.Keys == s.records.Keys && r.root == s.root && r.collisions == s.collisions
    ensures |r.records[id].objects| == |s.records[id].objects|
    ensures r.records[id].objects[0] == s.records[id].objects[0].(material := material)
    ensures r.records[id].objects[1..] == s.records[id].objects[1..]
    ensures r.records[id].originEcef == s.records[id].originEcef
    ensures forall other :: other in s.records && other != id ==> r.records[other] == s.records[other]
  {
    var rec := s.records[id];
    s.(records := s.records[id := rec.(objects := rec.objects[0 := rec.objects[0].(material := material)])])
  }

  /** `OnHighlightMeshUpload`. The mesh is added to the highlight streamer
      before the pending request is looked up, so a part arriving for a
      request that is no longer pending is added and then the lookup throws:
      the part stays in the streamer, hidden, and is not listed for reveal. */
  function OnHighlightMeshUpload(b: Buildings, highlightId: string, meshId: nat, highlightRequestId: int,
                                 h: HighlightInterop, materials: GS.MaterialSource): (r: Partial<Buildings>)
    requires Marshaled(h)
    ensures var partId := GetHighlightGameObjectId(highlightId, meshId);
      var added := GS.AddObjectsForMeshes(b.highlightStreamer, [CreateHighlightMesh(partId, h)],
                                          h.originEcef, HighlightMaterialName, materials);
      && (added.Failure? ==> r == Partial(b, Some(added.error)))
      && (added.Success? && highlightRequestId !in b.highlightRequests ==>
            r == Partial(b.(highlightStreamer := added.value), Some(KeyNotFoundException)))
      && (added.Success? && highlightRequestId in b.highlightRequests ==>
            && r.state.highlightIdsToAdd == b.highlightIdsToAdd + [partId]
            && r.state.highlightRequests == b.highlightRequests
            && r.state.buildingRequests == b.buildingRequests
            && r.state.highlightStreamer.records.Keys == b.highlightStreamer.records.Keys + {partId}
            && |r.state.highlightStreamer.records[partId].objects| == |added.value.records[partId].objects|
            && (r.thrown.None? <==> |added.value.records[partId].objects| > 0)
            && (r.thrown.None? ==> r.state.highlightStreamer.records[partId].objects[0].material
                                   == b.highlightRequests[highlightRequestId].material))
      && (added.Success? && highlightRequestId in b.highlightRequests &&
          |added.value.records[partId].objects| == 0 ==>
            r == Partial(b.(highlightStreamer := added.value,
                            highlightIdsToAdd := b.highlightIdsToAdd + [partId]),
                         Some(IndexOutOfRangeException)))
      && (added.Success? && highlightRequestId in b.highlightRequests &&
          |added.value.records[partId].objects| > 0 ==>
            r == Partial(b.(highlightStreamer := SetFirstMaterial(added.value, partId,
                                                                  b.highlightRequests[highlightRequestId].material),
                            highlightIdsToAdd := b.highlightIdsToAdd + [partId]),
                         None))
    ensures r.thrown.None? ==> highlightRequestId in b.highlightRequests
  {
    var partId := GetHighlightGameObjectId(highlightId, meshId);
    var mesh := CreateHighlightMesh(partId, h);
    match GS.AddObjectsForMeshes(b.highlightStreamer, [mesh], h.originEcef, HighlightMaterialName, materials)
    case Failure(e) => Partial(b, Some(e))
    case Success(s) =>
      if highlightRequestId !in b.highlightRequests then
        Partial(b.(highlightStreamer := s), Some(KeyNotFoundException))
      else
        var request := b.highlightRequests[highlightRequestId];
        var listed := b.highlightIdsToAdd + [partId];
        if |s.records[partId].objects| == 0 then
          Partial(b.(highlightStreamer := s, highlightIdsToAdd := listed), Some(IndexOutOfRangeException))
        else
          Partial(b.(highlightStreamer := SetFirstMaterial(s, partId, request.material),
                     highlightIdsToAdd := listed), None)
  }

  /** `OnHighlightMeshClear`: removes the part from the highlight streamer. */
  function OnHighlightMeshClear(b: Buildings, highlightId: string, meshId: nat): (r: Buildings)
    ensures GS.GetObjects(r.highlightStreamer, GetHighlightGameObjectId(highlightId, meshId)).None?
    ensures r == b.(highlightStreamer := r.highlightStreamer)
    ensures forall id :: id in r.highlightStreamer.records <==>
      id in b.highlightStreamer.records && id != GetHighlightGameObjectId(highlightId, meshId)
  {
    b.(highlightStreamer := GS.RemoveObjects(b.highlightStreamer, GetHighlightGameObjectId(highlightId, meshId)).0)
  }

  /** `SetVisible(id, true)` for each listed id, in order. */
  function RevealAll(s: GS.Streamer, ids: seq<string>): (r: GS.Streamer)
    ensures r.records.Keys == s.records.Keys && r.root == s.root && r.collisions == s.collisions
    ensures forall id :: id in s.records && id !in ids ==> r.records[id] == s.records[id]
    ensures forall id :: id in s.records && id in ids ==>
      && r.records[id].originEcef == s.records[id].originEcef
      && |r.records[id].objects| == |s.records[id].objects|
      && forall i :: 0 <= i < |r.records[id].objects| ==>
           r.records[id].objects[i] == s.records[id].objects[i].(active := true)
    decreases |ids|
  {
    if ids == [] then s
    else
      var rest := RevealAll(GS.SetVisible(s, ids[0], true), ids[1..]);
      assert forall id :: id in ids[1..] || id == ids[0] <==> id in ids;
      rest
  }

  /** `AddNewHighlights`: every uploaded part listed since the last call is
      made visible, and the list is emptied. */
  function AddNewHighlights(b: Buildings): (r: Buildings)
    ensures r.highlightIdsToAdd == []
    ensures r == b.(highlightStreamer := r.highlightStreamer, highlightIdsToAdd := [])
    ensures r.highlightStreamer.records.Keys == b.highlightStreamer.records.Keys
    ensures forall id :: id in b.highlightStreamer.records && id in b.highlightIdsToAdd ==>
      && r.highlightStreamer.records[id].originEcef == b.highlightStreamer.records[id].originEcef
      && |r.highlightStreamer.records[id].objects| == |b.highlightStreamer.records[id].objects|
      && forall i :: 0 <= i < |r.highlightStreamer.records[id].objects| ==>
           r.highlightStreamer.records[id].objects[i] == b.highlightStreamer.records[id].objects[i].(active := true)
    ensures forall id :: id in b.highlightStreamer.records && id !in b.highlightIdsToAdd ==>
      r.highlightStreamer.records[id] == b.highlightStreamer.records[id]
  {
    b.(highlightStreamer := RevealAll(b.highlightStreamer, b.highlightIdsToAdd), highlightIdsToAdd := [])
  }

  /** Two-phase reveal: a freshly uploaded part is hidden until the next
      `AddNewHighlights`, after which all its objects are visible. */
  lemma UploadThenReveal(b: Buildings, highlightId: string, meshId: nat, highlightRequestId: int,
                         h: HighlightInterop, materials: GS.MaterialSource)
    requires Marshaled(h)
    requires highlightRequestId in b.highlightRequests
    requires GetHighlightGameObjectId(highlightId, meshId) !in b.highlightStreamer.records
    requires OnHighlightMeshUpload(b, highlightId, meshId, highlightRequestId, h, materials).thrown.None?
    ensures var partId := GetHighlightGameObjectId(highlightId, meshId);
      var uploaded := OnHighlightMeshUpload(b, highlightId, meshId, highlightRequestId, h, materials).state;
      && |uploaded.highlightStreamer.records[partId].objects| == 1
      && !uploaded.highlightStreamer.records[partId].objects[0].active
      && AddNewHighlights(uploaded).highlightStreamer.records[partId].objects[0].active
  {
  }

  /** Every response, clear and reveal keeps the state valid: none of them
      issues an id or moves a counter, and each only removes pending
      requests or leaves them alone. With `RequestsNeverCollide` this covers
      the whole request lifecycle. */
  lemma ResponsesKeepValid(b: Buildings, handle: Option<Highlight>, received: bool, building: Building,
                           highlightId: string, meshId: nat, requestId: int,
                           h: HighlightInterop, materials: GS.MaterialSource)
    requires Valid(b)
    ensures Valid(ClearHighlight(b, handle).0)
    ensures OnBuildingReceived(b, received, building, requestId).Success? ==>
      Valid(OnBuildingReceived(b, received, building, requestId).value.0)
    ensures OnHighlightReceived(b, received, highlightId, requestId).Success? ==>
      Valid(OnHighlightReceived(b, received, highlightId, requestId).value.0)
    ensures Marshaled(h) ==> Valid(OnHighlightMeshUpload(b, highlightId, meshId, requestId, h, materials).state)
    ensures Valid(OnHighlightMeshClear(b, highlightId, meshId))
    ensures Valid(AddNewHighlights(b))
  {
  }

  /** A highlight request's whole life: issued, answered with success (the
      request stays pending and the handle names it), then cleared through
      the handle (the request is gone and the native side is told). */
  lemma HighlightLifecycle(b: Buildings, location: LatLongAltitude, material: Material,
                           callback: CallbackRef, highlightId: string)
    requires Valid(b) && b.nextHighlightRequestId < Int32.MaxValue
    ensures var issued := HighlightBuildingAtLocation(b, location, material, callback);
      issued.Success? &&
      var id := b.nextHighlightRequestId;
      var received := OnHighlightReceived(issued.value.0, true, highlightId, id);
      && received.Success?
      && id in received.value.0.highlightRequests
      && received.value.1.handle == Some(Highlight(highlightId, id))
      && var cleared := ClearHighlight(received.value.0, received.value.1.handle);
         && id !in cleared.0.highlightRequests
         && cleared.1 == [NativeClearHighlight(highlightId)]
         && cleared.0.highlightRequests == b.highlightRequests
  {
    var id := b.nextHighlightRequestId;
    var issued := HighlightBuildingAtLocation(b, location, material, callback).value.0;
    assert id !in b.highlightRequests;
    assert issued.highlightRequests - {id} == b.highlightRequests;
  }
}

=== FILE: camera_api.dfy ===
/** `CameraApi`: which Unity camera the map controls, how each coordinate
    conversion picks its camera, the argument block `MoveTo` / `AnimateTo`
    hand to the native `SetView`, and the `IsTransitioning` flag driven by
    native camera events. */
module CameraApi {
  import opened Wrappers
  import opened Geometry

  /** A Unity camera, by object identity. */
  type Camera = nat

  /** The controller's state: the controlled camera (null is `None`) and the
      `IsTransitioning` property. */
  datatype CameraApi = CameraApi(controlledCamera: Option<Camera>, isTransitioning: bool)

  /** The constructor: no camera is controlled and no transition is running. */
  function NewCameraApi(): (c: CameraApi)
    ensures GetControlledCamera(c) == None && !HasControlledCamera(c)
    ensures !c.isTransitioning
  {
    CameraApi(None, false)
  }

  function SetControlledCamera(c: CameraApi, camera: Option<Camera>): (r: CameraApi)
    ensures r.controlledCamera == camera
    ensures r.isTransitioning == c.isTransitioning
  {
    c.(controlledCamera := camera)
  }

  /** Reading the camera and setting it back changes nothing. */
  function GetControlledCamera(c: CameraApi): (r: Option<Camera>)
    ensures SetControlledCamera(c, r) == c
  {
    c.controlledCamera
  }

  function ClearControlledCamera(c: CameraApi): (r: CameraApi)
    ensures !HasControlledCamera(r)
    ensures r == SetControlledCamera(c, None)
  {
    c.(controlledCamera := None)
  }

  /** `HasControlledCamera`: exactly when the camera read back is not null. */
  predicate HasControlledCamera(c: CameraApi)
    ensures HasControlledCamera(c) <==> GetControlledCamera(c).Some?
  {
    c.controlledCamera.Some?
  }

  /** The accessors agree: the camera read back is the camera last set, and
      `HasControlledCamera` holds exactly when one is set. */
  lemma ControlledCameraAccessors(c: CameraApi, camera: Camera)
    ensures GetControlledCamera(SetControlledCamera(c, Some(camera))) == Some(camera)
    ensures HasControlledCamera(SetControlledCamera(c, Some(camera)))
    ensures GetControlledCamera(ClearControlledCamera(c)) == None
    ensures HasControlledCamera(c) <==> GetControlledCamera(c) != None
    ensures !HasControlledCamera(NewCameraApi()) && !NewCameraApi().isTransitioning
  {
  }

  /** `camera ?? m_controlledCamera`, followed by the null check every
      conversion performs. */
  function ResolveCamera(c: CameraApi, camera: Option<Camera>): (r: Result<Camera>)
    ensures camera.Some? ==> r == Success(camera.value)
    ensures camera.None? && c.controlledCamera.Some? ==> r == Success(c.controlledCamera.value)
    ensures r.Failure? <==> camera.None? && c.controlledCamera.None?
    ensures r.Failure? ==> r.error == ArgumentNullException
  {
    match camera
    case Some(k) => Success(k)
    case None =>
      match c.controlledCamera
      case Some(k) => Success(k)
      case None => Failure(ArgumentNullException)
  }

  /** The projections the native implementation and the Unity camera
      perform; the model only routes values through them. */
  datatype Projections = Projections(
    geographicToWorld: (LatLongAltitude, Camera) -> Vec3,
    worldToGeographic: (Vec3, Camera) -> LatLongAltitude,
    geographicToViewport: (LatLongAltitude, Camera) -> Vec3,
    viewportToGeographic: (Vec3, Camera) -> LatLongAltitude,
    screenToViewport: (Vec3, Camera) -> Vec3,
    viewportToScreen: (Vec3, Camera) -> Vec3)

  function GeographicToWorldPoint(c: CameraApi, p: Projections, position: LatLongAltitude,
                                  camera: Option<Camera>): (r: Result<Vec3>)
    ensures r.Failure? <==> ResolveCamera(c, camera).Failure?
    ensures r.Failure? ==> r.error == ArgumentNullException
    ensures r.Success? ==> r.value == p.geographicToWorld(position, ResolveCamera(c, camera).value)
  {
    var k :- ResolveCamera(c, camera);
    Success(p.geographicToWorld(position, k))
  }

  function WorldToGeographicPoint(c: CameraApi, p: Projections, position: Vec3,
                                  camera: Option<Camera>): (r: Result<LatLongAltitude>)
    ensures r.Failure? <==> ResolveCamera(c, camera).Failure?
    ensures r.Failure? ==> r.error == ArgumentNullException
    ensures r.Success? ==> r.value == p.worldToGeographic(position, ResolveCamera(c, camera).value)
  {
    var k :- ResolveCamera(c, camera);
    Success(p.worldToGeographic(position, k))
  }

  function GeographicToViewportPoint(c: CameraApi, p: Projections, position: LatLongAltitude,
                                     camera: Option<Camera>): (r: Result<Vec3>)
    ensures r.Failure? <==> ResolveCamera(c, camera).Failure?
    ensures r.Failure? ==> r.error == ArgumentNullException
    ensures r.Success? ==> r.value == p.geographicToViewport(position, ResolveCamera(c, camera).value)
  {
    var k :- ResolveCamera(c, camera);
    Success(p.geographicToViewport(position, k))
  }

  function ViewportToGeographicPoint(c: CameraApi, p: Projections, viewportSpacePosition: Vec3,
                                     camera: Option<Camera>): (r: Result<LatLongAltitude>)
    ensures r.Failure? <==> ResolveCamera(c, camera).Failure?
    ensures r.Failure? ==> r.error == ArgumentNullException
    ensures r.Success? ==>
      r.value == p.viewportToGeographic(viewportSpacePosition, ResolveCamera(c, camera).value)
  {
    var k :- ResolveCamera(c, camera);
    Success(p.viewportToGeographic(viewportSpacePosition, k))
  }

  /** Screen space goes through viewport space with the resolved camera. */
  function ScreenToGeographicPoint(c: CameraApi, p: Projections, screenSpacePosition: Vec3,
                                   camera: Option<Camera>): (r: Result<LatLongAltitude>)
    ensures r.Failure? <==> ResolveCamera(c, camera).Failure?
    ensures r.Failure? ==> r.error == ArgumentNullException
    ensures r.Success? ==>
      var k := ResolveCamera(c, camera).value;
      r == ViewportToGeographicPoint(c, p, p.screenToViewport(screenSpacePosition, k), Some(k))
  {
    var k :- ResolveCamera(c, camera);
    ViewportToGeographicPoint(c, p, p.screenToViewport(screenSpacePosition, k), Some(k))
  }

  function GeographicToScreenPoint(c: CameraApi, p: Projections, position: LatLongAltitude,
                                   camera: Option<Camera>): (r: Result<Vec3>)
    ensures r.Failure? <==> ResolveCamera(c, camera).Failure?
    ensures r.Failure? ==> r.error == ArgumentNullException
    ensures r.Success? ==>
      var k := ResolveCamera(c, camera).value;
      r.value == p.viewportToScreen(GeographicToViewportPoint(c, p, position, Some(k)).value, k)
  {
    var k :- ResolveCamera(c, camera);
    var viewport := GeographicToViewportPoint(c, p, position, Some(k)).value;
    Success(p.viewportToScreen(viewport, k))
  }

  /** Leaving the camera argument out is the same as passing the controlled
      camera, and an explicit camera makes the controlled one irrelevant. */
  lemma OmittedCameraMeansControlledCamera(c: CameraApi, c': CameraApi, p: Projections,
                                           geo: LatLongAltitude, v: Vec3, k: Camera)
    ensures GeographicToWorldPoint(c, p, geo, None) == GeographicToWorldPoint(c, p, geo, c.controlledCamera)
    ensures WorldToGeographicPoint(c, p, v, None) == WorldToGeographicPoint(c, p, v, c.controlledCamera)
    ensures GeographicToViewportPoint(c, p, geo, None) == GeographicToViewportPoint(c, p, geo, c.controlledCamera)
    ensures ViewportToGeographicPoint(c, p, v, None) == ViewportToGeographicPoint(c, p, v, c.controlledCamera)
    ensures ScreenToGeographicPoint(c, p, v, None) == ScreenToGeographicPoint(c, p, v, c.controlledCamera)
    ensures GeographicToScreenPoint(c, p, geo, None) == GeographicToScreenPoint(c, p, geo, c.controlledCamera)
    ensures GeographicToWorldPoint(c, p, geo, Some(k)) == GeographicToWorldPoint(c', p, geo, Some(k))
    ensures ScreenToGeographicPoint(c, p, v, Some(k)) == ScreenToGeographicPoint(c', p, v, Some(k))
    ensures GeographicToScreenPoint(c, p, geo, Some(k)) == GeographicToScreenPoint(c', p, geo, Some(k))
  {
  }

  /** The argument block of the native `SetView` call. */
  datatype SetViewArgs = SetViewArgs(
    animated: bool,
    latDegrees: real, longDegrees: real, altitude: real, modifyPosition: bool,
    distance: real, modifyDistance: bool,
    headingDegrees: real, modifyHeading: bool,
    tiltDegrees: real, modifyTilt: bool,
    transitionDurationSeconds: real, hasTransitionDuration: bool,
    jumpIfFarAway: bool,
    allowInterruption: bool)

  /** A `double?` argument as the pair `(HasValue ? Value : 0.0, HasValue)`. */
  function EncodeOptional(v: Option<real>): (r: (real, bool))
    ensures r.1 <==> v.Some?
    ensures v.Some? ==> r.0 == v.value
    ensures v.None? ==> r.0 == 0.0
  {
    match v
    case Some(x) => (x, true)
    case None => (0.0, false)
  }

  /** How the native side reads such a pair: the value counts only with its flag. */
  function DecodeOptional(pair: (real, bool)): Option<real> {
    if pair.1 then Some(pair.0) else None
  }

  /** The encoding loses nothing: decoding gives back the optional argument. */
  lemma EncodeOptionalRoundTrip(v: Option<real>)
    ensures DecodeOptional(EncodeOptional(v)) == v
  {
  }

  /** The block for an interest point and optional distance, heading, tilt
      and duration: interest altitude 0, position always modified, and
      interruption always allowed. */
  function ViewArgs(animated: bool, interestPoint: LatLong, distanceFromInterest: Option<real>,
                    headingDegrees: Option<real>, tiltDegrees: Option<real>,
                    transitionDuration: Option<real>, jumpIfFarAway: bool): SetViewArgs
  {
    var d := EncodeOptional(distanceFromInterest);
    var h := EncodeOptional(headingDegrees);
    var t := EncodeOptional(tiltDegrees);
    var s := EncodeOptional(transitionDuration);
    SetViewArgs(animated,
                interestPoint.latitudeDegrees, interestPoint.longitudeDegrees, 0.0, true,
                d.0, d.1, h.0, h.1, t.0, t.1, s.0, s.1,
                jumpIfFarAway, true)
  }

  /** `MoveTo(interestPoint, distance?, heading?, tilt?)`: the `SetView`
      call it issues. It needs a controlled camera; it is not animated, has
      no transition duration and always jumps. */
  function MoveTo(c: CameraApi, interestPoint: LatLong, distanceFromInterest: Option<real>,
                  headingDegrees: Option<real>, tiltDegrees: Option<real>): (r: Result<SetViewArgs>)
    ensures r.Failure? <==> !HasControlledCamera(c)
    ensures r.Failure? ==> r.error == ArgumentNullException
    ensures r.Success? ==>
      && !r.value.animated
      && r.value.latDegrees == interestPoint.latitudeDegrees
      && r.value.longDegrees == interestPoint.longitudeDegrees
      && r.value.altitude == 0.0 && r.value.modifyPosition
      && (r.value.distance, r.value.modifyDistance) == EncodeOptional(distanceFromInterest)
      && (r.value.headingDegrees, r.value.modifyHeading) == EncodeOptional(headingDegrees)
      && (r.value.tiltDegrees, r.value.modifyTilt) == EncodeOptional(tiltDegrees)
      && r.value.transitionDurationSeconds == 0.0 && !r.value.hasTransitionDuration
      && r.value.jumpIfFarAway && r.value.allowInterruption
  {
    if !HasControlledCamera(c) then Failure(ArgumentNullException)
    else Success(ViewArgs(false, interestPoint, distanceFromInterest, headingDegrees, tiltDegrees, None, true))
  }

  /** `AnimateTo(interestPoint, distance?, heading?, tilt?, duration?, jumpIfFarAway)`:
      animated, with the duration encoded like the other optionals and
      `jumpIfFarAway` passed through. */
  function AnimateTo(c: CameraApi, interestPoint: LatLong, distanceFromInterest: Option<real>,
                     headingDegrees: Option<real>, tiltDegrees: Option<real>,
                     transitionDuration: Option<real>, jumpIfFarAway: bool): (r: Result<SetViewArgs>)
    ensures r.Failure? <==> !HasControlledCamera(c)
    ensures r.Failure? ==> r.error == ArgumentNullException
    ensures r.Success? ==>
      && r.value.animated
      && r.value.latDegrees == interestPoint.latitudeDegrees
      && r.value.longDegrees == interestPoint.longitudeDegrees
      && r.value.altitude == 0.0 && r.value.modifyPosition
      && (r.value.distance, r.value.modifyDistance) == EncodeOptional(distanceFromInterest)
      && (r.value.headingDegrees, r.value.modifyHeading) == EncodeOptional(headingDegrees)
      && (r.value.tiltDegrees, r.value.modifyTilt) == EncodeOptional(tiltDegrees)
      && (r.value.transitionDurationSeconds, r.value.hasTransitionDuration) == EncodeOptional(transitionDuration)
      && r.value.jumpIfFarAway == jumpIfFarAway && r.value.allowInterruption
  {
    if !HasControlledCamera(c) then Failure(ArgumentNullException)
    else Success(ViewArgs(true, interestPoint, distanceFromInterest, headingDegrees, tiltDegrees,
                          transitionDuration, jumpIfFarAway))
  }

  /** `MoveTo` is an `AnimateTo` without duration that jumps, issued
      unanimated. */
  lemma MoveToIsUnanimatedAnimateTo(c: CameraApi, interestPoint: LatLong, distance: Option<real>,
                                    heading: Option<real>, tilt: Option<real>)
    ensures var moved := MoveTo(c, interestPoint, distance, heading, tilt);
      var animated := AnimateTo(c, interestPoint, distance, heading, tilt, None, true);
      moved.Success? == animated.Success? &&
      (moved.Success? ==> moved.value == animated.value.(animated := false))
  {
  }

  /** `GetTiltHeadingAndDistanceFromCameraAndTargetPosition`: the
      floating-point solver, outside the model; it yields (tilt, heading, distance). */
  type ViewSolver = (LatLong, LatLongAltitude) -> (real, real, real)

  /** `MoveTo(interestPoint, cameraPosition)`: all three view parameters are
      solved and passed as present values. */
  function MoveToPosition(c: CameraApi, interestPoint: LatLong, cameraPosition: LatLongAltitude,
                          solve: ViewSolver): (r: Result<SetViewArgs>)
    ensures var (tilt, heading, distance) := solve(interestPoint, cameraPosition);
      r == MoveTo(c, interestPoint, Some(distance), Some(heading), Some(tilt))
    ensures r.Success? ==> r.value.modifyDistance && r.value.modifyHeading && r.value.modifyTilt
  {
    if !HasControlledCamera(c) then Failure(ArgumentNullException)
    else
      var (tilt, heading, distance) := solve(interestPoint, cameraPosition);
      MoveTo(c, interestPoint, Some(distance), Some(heading), Some(tilt))
  }

  /** `AnimateTo(interestPoint, cameraPosition, duration?, jumpIfFarAway)`:
      solves first and lets the forwarded call check the camera. */
  function AnimateToPosition(c: CameraApi, interestPoint: LatLong, cameraPosition: LatLongAltitude,
                             transitionDuration: Option<real>, jumpIfFarAway: bool,
                             solve: ViewSolver): (r: Result<SetViewArgs>)
    ensures var (tilt, heading, distance) := solve(interestPoint, cameraPosition);
      r == AnimateTo(c, interestPoint, Some(distance), Some(heading), Some(tilt),
                     transitionDuration, jumpIfFarAway)
    ensures r.Success? ==> r.value.modifyDistance && r.value.modifyHeading && r.value.modifyTilt
  {
    var (tilt, heading, distance) := solve(interestPoint, cameraPosition);
    AnimateTo(c, interestPoint, Some(distance), Some(heading), Some(tilt), transitionDuration, jumpIfFarAway)
  }

  /** What `Update` does each frame, as events. */
  datatype UpdateStep = InputHandlerUpdate | ApplyNativeCameraState(camera: Camera)

  /** `Update`: with a controlled camera, runs the input handler and then
      applies the native camera state to that camera; otherwise nothing. */
  function Update(c: CameraApi): (r: seq<UpdateStep>)
    ensures r == [] <==> !HasControlledCamera(c)
    ensures r != [] ==> r == [InputHandlerUpdate, ApplyNativeCameraState(c.controlledCamera.value)]
  {
    match c.controlledCamera
    case None => []
    case Some(k) => [InputHandlerUpdate, ApplyNativeCameraState(k)]
  }

  /** `CameraEventType`. */
  datatype CameraEventType =
    | Move | MoveStart | MoveEnd
    | Drag | DragStart | DragEnd
    | Pan | PanStart | PanEnd
    | Rotate | RotateStart | RotateEnd
    | Tilt | TiltStart | TiltEnd
    | Zoom | ZoomStart | ZoomEnd
    | TransitionStart | TransitionEnd

  /** `OnCameraEvent`, with the controller reached through `Api.Instance`
      (`None` when there is none, where the access throws). The registered
      transition handlers set or clear the flag; every other event is
      ignored, and the controlled camera never changes. */
  function OnCameraEvent(controller: Option<CameraApi>, eventId: CameraEventType): (r: Result<CameraApi>)
    ensures r.Failure? <==> controller.None?
    ensures r.Failure? ==> r.error == NullReferenceException
    ensures r.Success? ==> r.value.controlledCamera == controller.value.controlledCamera
    ensures r.Success? && eventId == TransitionStart ==> r.value.isTransitioning
    ensures r.Success? && eventId == TransitionEnd ==> !r.value.isTransitioning
    ensures r.Success? && eventId != TransitionStart && eventId != TransitionEnd ==>
      r.value == controller.value
  {
    match controller
    case None => Failure(NullReferenceException)
    case Some(c) =>
      if eventId == TransitionStart then Success(c.(isTransitioning := true))
      else if eventId == TransitionEnd then Success(c.(isTransitioning := false))
      else Success(c)
  }

  /** A stream of events delivered to an existing controller. */
  function OnCameraEvents(c: CameraApi, events: seq<CameraEventType>): (r: CameraApi)
    ensures r.controlledCamera == c.controlledCamera
    decreases |events|
  {
    if events == [] then c
    else OnCameraEvents(OnCameraEvent(Some(c), events[0]).value, events[1..])
  }

  /** The last transition event in a stream, if any: `Some(true)` for a
      start, `Some(false)` for an end. */
  function LastTransition(events: seq<CameraEventType>): Option<bool>
    decreases |events|
  {
    if events == [] then None
    else
      var e := events[|events| - 1];
      if e == TransitionStart then Some(true)
      else if e == TransitionEnd then Some(false)
      else LastTransition(events[..|events| - 1])
  }

  /** After any stream of events, `IsTransitioning` reports the last
      transition event, or keeps its value if there was none. */
  lemma {:induction false} TransitionFlagFollowsLastTransition(c: CameraApi, events: seq<CameraEventType>)
    ensures OnCameraEvents(c, events).isTransitioning == LastTransition(events).GetOr(c.isTransitioning)
    decreases |events|
  {
    if events != [] {
      var init := events[..|events| - 1];
      var last := events[|events| - 1];
      OnCameraEventsSplit(c, init, last);
      assert events == init + [last];
      TransitionFlagFollowsLastTransition(c, init);
    }
  }

  /** Delivering one more event after a stream. */
  lemma {:induction false} OnCameraEventsSplit(c: CameraApi, events: seq<CameraEventType>, last: CameraEventType)
    ensures OnCameraEvents(c, events + [last]) ==
            OnCameraEvent(Some(OnCameraEvents(c, events)), last).value
    decreases |events|
  {
    if events == [] {
      assert [last][1..] == [];
    } else {
      assert (events + [last])[1..] == events[1..] + [last];
      OnCameraEventsSplit(OnCameraEvent(Some(c), events[0]).value, events[1..], last);
    }
  }
}

=== FILE: decimal.dfy ===
/** Decimal rendering of non-negative integers, as .NET's `int.ToString()` and
    `ulong.ToString()` produce it for values >= 0 (no sign, no leading zeros),
    together with its inverse. */
module Decimal {

  predicate IsDigit(c: char) {
    '0' <= c <= '9'
  }

  predicate AllDigits(s: string) {
    forall i :: 0 <= i < |s| ==> IsDigit(s[i])
  }

  /** The canonical form: non-empty, and no leading zero unless it is "0". */
  predicate Canonical(s: string) {
    |s| >= 1 && AllDigits(s) && (|s| > 1 ==> s[0] != '0')
  }

  function DigitChar(d: nat): (c: char)
    requires d < 10
    ensures IsDigit(c)
  {
    (48 + d) as char
  }

  function DigitValue(c: char): (d: nat)
    requires IsDigit(c)
    ensures d < 10
  {
    c as int - 48
  }

  /** `n.ToString()` for n >= 0. */
  function NatToString(n: nat): (s: string)
    ensures Canonical(s)
    ensures n < 10 <==> |s| == 1
    decreases n
  {
    if n < 10 then [DigitChar(n)] else NatToString(n / 10) + [DigitChar(n % 10)]
  }

  /** The value of a string of decimal digits (most significant first). */
  function ParseDigits(s: string): nat
    requires AllDigits(s)
    decreases |s|
  {
    if s == [] then 0 else 10 * ParseDigits(s[..|s| - 1]) + DigitValue(s[|s| - 1])
  }

  /** Parsing undoes rendering. */
  lemma {:induction false} ParseNatToString(n: nat)
    ensures ParseDigits(NatToString(n)) == n
    decreases n
  {
    var s := NatToString(n);
    if n >= 10 {
      ParseNatToString(n / 10);
      assert s[..|s| - 1] == NatToString(n / 10);
    }
  }

  /** A digit string that parses to zero consists of zeros only. */
  lemma {:induction false} ParseZeroAllZeros(s: string)
    requires AllDigits(s)
    requires ParseDigits(s) == 0
    ensures forall i :: 0 <= i < |s| ==> s[i] == '0'
    decreases |s|
  {
    if s != [] {
      var p := s[..|s| - 1];
      ParseZeroAllZeros(p);
      assert forall i :: 0 <= i < |s| - 1 ==> s[i] == p[i];
    }
  }

  /** Rendering undoes parsing on canonical digit strings. */
  lemma {:induction false} NatToStringParse(s: string)
    requires Canonical(s)
    ensures NatToString(ParseDigits(s)) == s
    decreases |s|
  {
    if |s| > 1 {
      var p := s[..|s| - 1];
      var last := s[|s| - 1];
      assert p[0] == s[0];
      NatToStringParse(p);
      var q := ParseDigits(p);
      if q == 0 {
        ParseZeroAllZeros(p);
        assert false;
      }
      var n := ParseDigits(s);
      assert n == 10 * q + DigitValue(last);
      assert n / 10 == q && n % 10 == DigitValue(last);
      assert DigitChar(DigitValue(last)) == last;
      assert s == p + [last];
    } else {
      assert s == [s[0]];
      assert DigitChar(DigitValue(s[0])) == s[0];
    }
  }

  /** Distinct numbers render differently. */
  lemma NatToStringInjective(a: nat, b: nat)
    ensures NatToString(a) == NatToString(b) <==> a == b
  {
    ParseNatToString(a);
    ParseNatToString(b);
  }
}

=== FILE: game_object_factory.dfy ===
/** `GameObjectFactory`: one inactive game object per streamed mesh, named
    after the mesh and its position in the batch, with a collider chosen by
    the collision policy. */
module GameObjectFactory {
  import opened Wrappers
  import opened Decimal
  import opened Geometry

  /** A Unity `Mesh`: its name, vertex positions and triangle index list. */
  datatype Mesh = Mesh(name: string, vertices: seq<Vec3>, triangles: seq<int>)

  /** A Unity `Material`, by object identity. */
  datatype Material = Material(handle: nat)

  /** `CollisionStreamingType`. */
  datatype CollisionStreamingType = NoCollision | SingleSidedCollision | DoubleSidedCollision

  /** The factory's `m_parentTransform`: the parent by identity, and the local
      pose Unity gives an object at the world origin when it is put under
      this parent. Assigning `transform.parent` keeps the world pose, so that
      local pose is the inverse of the parent's world pose, which Unity
      computes and the model takes as given. */
  datatype ParentTransform = ParentTransform(id: nat, poseAtWorldOrigin: Transform)

  /** A created Unity `GameObject` with the components the factory attaches:
      the parent it is placed under (by identity), its transform, the
      `MeshFilter` mesh, the `MeshRenderer` material and the optional
      `MeshCollider` mesh. */
  datatype GameObject = GameObject(
    name: string,
    active: bool,
    parent: nat,
    transform: Transform,
    mesh: Mesh,
    material: Material,
    collider: Option<Mesh>)

  // ---------------------------------------------------------------------
  // Object names

  const IndexTag := "_INDEX"

  /** `string.Format("{0}_INDEX{1}", baseName, meshIndex)`. */
  function CreateGameObjectName(baseName: string, meshIndex: nat): string {
    baseName + IndexTag + NatToString(meshIndex)
  }

  /** The length of the longest all-digit suffix of `s`. */
  function TrailingDigitCount(s: string): (k: nat)
    ensures k <= |s|
    ensures AllDigits(s[|s| - k..])
    ensures k < |s| ==> !IsDigit(s[|s| - k - 1])
    decreases |s|
  {
    if s == [] || !IsDigit(s[|s| - 1]) then 0
    else
      var k := TrailingDigitCount(s[..|s| - 1]);
      TrailingDigitsExtend(s, k);
      k + 1
  }

  /** A maximal digit suffix of `s` without its last character, followed by
      that (digit) last character, is a maximal digit suffix of `s`. */
  lemma TrailingDigitsExtend(s: string, k: nat)
    requires |s| > 0 && IsDigit(s[|s| - 1]) && k <= |s| - 1
    requires AllDigits(s[..|s| - 1][|s| - 1 - k..])
    requires k < |s| - 1 ==> !IsDigit(s[..|s| - 1][|s| - 1 - k - 1])
    ensures AllDigits(s[|s| - (k + 1)..])
    ensures k + 1 < |s| ==> !IsDigit(s[|s| - (k + 1) - 1])
  {
    var init := s[..|s| - 1];
    var suffix := s[|s| - (k + 1)..];
    forall i | 0 <= i < |suffix|
      ensures IsDigit(suffix[i])
    {
      if i < k {
        assert suffix[i] == init[|s| - 1 - k..][i];
      }
    }
    if k + 1 < |s| {
      assert s[|s| - (k + 1) - 1] == init[|s| - 1 - k - 1];
    }
  }

  /** Reads a game-object name back into the mesh name and mesh index it was
      built from: the index is the canonical decimal suffix, and it must be
      preceded by "_INDEX". */
  function ParseGameObjectName(name: string): Option<(string, nat)> {
    var k := TrailingDigitCount(name);
    var digits := name[|name| - k..];
    var rest := name[..|name| - k];
    if Canonical(digits) && |rest| >= |IndexTag| && rest[|rest| - |IndexTag|..] == IndexTag
    then Some((rest[..|rest| - |IndexTag|], ParseDigits(digits)))
    else None
  }

  lemma {:induction false} TrailingDigitsAfterTag(prefix: string, digits: string)
    requires AllDigits(digits)
    ensures TrailingDigitCount(prefix + IndexTag + digits) == |digits|
    decreases |digits|
  {
    var s := prefix + IndexTag + digits;
    if digits == [] {
      assert s[|s| - 1] == 'X';
    } else {
      var d' := digits[..|digits| - 1];
      assert s[..|s| - 1] == prefix + IndexTag + d';
      TrailingDigitsAfterTag(prefix, d');
    }
  }

  /** A built name reads back as the pair it was built from. */
  lemma CreateGameObjectNameReadsBack(baseName: string, meshIndex: nat)
    ensures ParseGameObjectName(CreateGameObjectName(baseName, meshIndex)) == Some((baseName, meshIndex))
  {
    var built := CreateGameObjectName(baseName, meshIndex);
    var digits := NatToString(meshIndex);
    TrailingDigitsAfterTag(baseName, digits);
    assert built[|built| - |digits|..] == digits;
    assert built[..|built| - |digits|] == baseName + IndexTag;
    ParseNatToString(meshIndex);
  }

  /** A name that reads back as a pair is the name built from that pair. */
  lemma ParsedNameIsBuilt(name: string, baseName: string, meshIndex: nat)
    requires ParseGameObjectName(name) == Some((baseName, meshIndex))
    ensures name == CreateGameObjectName(baseName, meshIndex)
  {
    var k := TrailingDigitCount(name);
    var ds := name[|name| - k..];
    var rest := name[..|name| - k];
    NatToStringParse(ds);
    assert rest == baseName + IndexTag;
    assert name == rest + ds;
  }

  /** A name built by `CreateGameObjectName` reads back as the mesh name and
      index it was built from, and any name that reads back as a pair is the
      name built from that pair: the naming scheme is injective. */
  lemma GameObjectNameRoundTrip(name: string, baseName: string, meshIndex: nat)
    ensures ParseGameObjectName(name) == Some((baseName, meshIndex))
        <==> name == CreateGameObjectName(baseName, meshIndex)
  {
    CreateGameObjectNameReadsBack(baseName, meshIndex);
    if ParseGameObjectName(name) == Some((baseName, meshIndex)) {
      ParsedNameIsBuilt(name, baseName, meshIndex);
    }
  }

  // ---------------------------------------------------------------------
  // Double-sided collision mesh

  /** Triangle `t` of an index list: the indices at 3t, 3t+1, 3t+2. */
  function Triangle(indices: seq<int>, t: nat): (int, int, int)
    requires 3 * t + 3 <= |indices|
  {
    (indices[3 * t], indices[3 * t + 1], indices[3 * t + 2])
  }

  /** The same triangle with the opposite winding: (a, b, c) becomes (a, c, b). */
  function Reversed(tri: (int, int, int)): (int, int, int) {
    (tri.0, tri.2, tri.1)
  }

  /** `doubled` is the double-sided form of `source`: twice as long, the
      source unchanged in the first half, and in the second half, triangle
      for triangle, the source with every winding reversed. */
  ghost predicate IsDoubleSidedOf(doubled: seq<int>, source: seq<int>)
    requires |source| % 3 == 0
  {
    && |doubled| == 2 * |source|
    && doubled[..|source|] == source
    && forall t :: 0 <= t < |source| / 3 ==>
         Triangle(doubled, |source| / 3 + t) == Reversed(Triangle(source, t))
  }

  /** Every triangle of `source`, winding reversed. */
  function ReverseWindings(source: seq<int>): (r: seq<int>)
    requires |source| % 3 == 0
    ensures |r| == |source|
    ensures forall t :: 0 <= t < |source| / 3 ==> Triangle(r, t) == Reversed(Triangle(source, t))
    decreases |source|
  {
    if source == [] then []
    else
      var rest := ReverseWindings(source[3..]);
      var r := [source[0], source[2], source[1]] + rest;
      assert forall t :: 1 <= t < |source| / 3 ==>
        Triangle(r, t) == Triangle(rest, t - 1) && Triangle(source, t) == Triangle(source[3..], t - 1);
      r
  }

  /** The index array of `CreateDoubleSidedCollisionMesh`. The copy loop reads
      three indices per step, so a length that is not a multiple of three
      reads past the end of the source array and throws. */
  function DoubleSidedTriangles(source: seq<int>): (r: Result<seq<int>>)
    ensures r.Success? <==> |source| % 3 == 0
    ensures r.Failure? ==> r.error == IndexOutOfRangeException
    ensures r.Success? ==> IsDoubleSidedOf(r.value, source)
  {
    if |source| % 3 != 0 then Failure(IndexOutOfRangeException)
    else
      var doubled := source + ReverseWindings(source);
      assert forall t :: 0 <= t < |source| / 3 ==>
        Triangle(doubled, |source| / 3 + t) == Triangle(ReverseWindings(source), t);
      Success(doubled)
  }

  /** `CreateDoubleSidedCollisionMesh`: same name and vertices, doubled triangles. */
  function CreateDoubleSidedCollisionMesh(source: Mesh): (r: Result<Mesh>)
    ensures r.Success? <==> |source.triangles| % 3 == 0
    ensures r.Success? ==>
      && r.value.name == source.name
      && r.value.vertices == source.vertices
      && IsDoubleSidedOf(r.value.triangles, source.triangles)
  {
    var triangles :- DoubleSidedTriangles(source.triangles);
    Success(Mesh(source.name, source.vertices, triangles))
  }

  // ---------------------------------------------------------------------
  // Game objects

  /** The collider a policy calls for: none, the render mesh itself, or its
      double-sided copy. */
  ghost predicate ColliderFits(collider: Option<Mesh>, mesh: Mesh, policy: CollisionStreamingType) {
    match policy
    case NoCollision => collider == None
    case SingleSidedCollision => collider == Some(mesh)
    case DoubleSidedCollision =>
      && collider.Some?
      && collider.value.name == mesh.name
      && collider.value.vertices == mesh.vertices
      && |mesh.triangles| % 3 == 0
      && IsDoubleSidedOf(collider.value.triangles, mesh.triangles)
  }

  /** Whether a policy can build a collider for `mesh` without throwing. */
  predicate CanCollide(mesh: Mesh, policy: CollisionStreamingType) {
    policy == DoubleSidedCollision ==> |mesh.triangles| % 3 == 0
  }

  /** The object as it leaves the factory: inactive, under the factory's
      parent at the world origin, with unit local scale, carrying the mesh
      and the material. */
  ghost predicate Fresh(o: GameObject, mesh: Mesh, material: Material, name: string,
                        policy: CollisionStreamingType, parent: ParentTransform)
  {
    && o.name == name
    && !o.active
    && o.parent == parent.id
    && o.transform == parent.poseAtWorldOrigin.(localScale := One)
    && o.mesh == mesh
    && o.material == material
    && ColliderFits(o.collider, mesh, policy)
  }

  /** The collision `switch` of `CreateGameObject`. */
  function CollisionMesh(mesh: Mesh, policy: CollisionStreamingType): (r: Result<Option<Mesh>>)
    ensures r.Success? <==> CanCollide(mesh, policy)
    ensures r.Success? ==> ColliderFits(r.value, mesh, policy)
  {
    match policy
    case NoCollision => Success(None)
    case SingleSidedCollision => Success(Some(mesh))
    case DoubleSidedCollision =>
      var doubled :- CreateDoubleSidedCollisionMesh(mesh);
      Success(Some(doubled))
  }

  /** `CreateGameObject`. */
  function CreateGameObject(mesh: Mesh, material: Material, name: string,
                            policy: CollisionStreamingType, parent: ParentTransform): (r: Result<GameObject>)
    ensures r.Success? <==> CanCollide(mesh, policy)
    ensures r.Success? ==> Fresh(r.value, mesh, material, name, policy, parent)
  {
    var collider :- CollisionMesh(mesh, policy);
    var placed := parent.poseAtWorldOrigin.(localScale := One);
    Success(GameObject(name, false, parent.id, placed, mesh, material, collider))
  }

  /** The loop of `CreateGameObjects` from mesh index `from` on. */
  function CreateGameObjectsFrom(meshes: seq<Mesh>, from: nat, material: Material,
                                 policy: CollisionStreamingType, parent: ParentTransform): (r: Result<seq<GameObject>>)
    requires from <= |meshes|
    ensures r.Success? <==> forall i :: from <= i < |meshes| ==> CanCollide(meshes[i], policy)
    ensures r.Failure? ==> r.error == IndexOutOfRangeException
    ensures r.Success? ==> |r.value| == |meshes| - from
    ensures r.Success? ==> forall i :: from <= i < |meshes| ==>
      Fresh(r.value[i - from], meshes[i], material,
            CreateGameObjectName(meshes[i].name, i), policy, parent)
    decreases |meshes| - from
  {
    if from == |meshes| then Success([])
    else
      var first :- CreateGameObject(meshes[from], material,
                                    CreateGameObjectName(meshes[from].name, from), policy, parent);
      var rest :- CreateGameObjectsFrom(meshes, from + 1, material, policy, parent);
      Success([first] + rest)
  }

  /** `CreateGameObjects`: exactly one fresh object per mesh, in mesh order,
      the i-th named "{mesh name}_INDEX{i}". It throws only when the policy
      is double-sided and some mesh has a triangle list whose length is not a
      multiple of three. */
  function CreateGameObjects(meshes: seq<Mesh>, material: Material,
                             policy: CollisionStreamingType, parent: ParentTransform): (r: Result<seq<GameObject>>)
    ensures r.Success? <==> forall i :: 0 <= i < |meshes| ==> CanCollide(meshes[i], policy)
    ensures r.Success? ==> |r.value| == |meshes|
    ensures r.Success? ==> forall i :: 0 <= i < |meshes| ==>
      Fresh(r.value[i], meshes[i], material, CreateGameObjectName(meshes[i].name, i), policy, parent)
  {
    CreateGameObjectsFrom(meshes, 0, material, policy, parent)
  }

  /** The objects of one batch have pairwise distinct names whenever the
      meshes do, and even when they do not, since the index differs. */
  lemma CreatedNamesDistinct(meshes: seq<Mesh>, objects: seq<GameObject>, i: nat, j: nat,
                             material: Material, policy: CollisionStreamingType, parent: ParentTransform)
    requires CreateGameObjects(meshes, material, policy, parent) == Success(objects)
    requires i < j < |meshes|
    ensures objects[i].name != objects[j].name
  {
    var n := objects[i].name;
    GameObjectNameRoundTrip(n, meshes[i].name, i);
    GameObjectNameRoundTrip(n, meshes[j].name, j);
  }
}

=== FILE: game_object_streamer.dfy ===
/** `GameObjectStreamer`: the objects of one resource category, keyed by
    resource id. The repository it delegates to (`GameObjectRepository`) is
    not part of this model; it is represented by what the streamer observes of
    it, a map from id to the record added under that id. */
module GameObjectStreamer {
  import opened Wrappers
  import opened Geometry
  import opened GameObjectFactory

  /** What the repository holds for one id: the ECEF origin and the objects. */
  datatype Record = Record(originEcef: Vec3, objects: seq<GameObject>)

  /** `MaterialRepository.LoadOrCreateMaterial(id, materialName)`: outside
      the model, supplied by the caller. */
  type MaterialSource = (string, string) -> Material

  /** One streamer: the root object its objects are parented to, the
      repository contents, and the collision policy for objects created from
      now on. */
  datatype Streamer = Streamer(root: ParentTransform, records: map<string, Record>, collisions: CollisionStreamingType)

  function NewStreamer(root: ParentTransform, collisions: CollisionStreamingType): (s: Streamer)
    ensures s.records == map[] && s.root == root && s.collisions == collisions
  {
    Streamer(root, map[], collisions)
  }

  /** `AddObjectsForMeshes`. The record is keyed on the first mesh's name, so
      an empty array throws; an id that is already present is left alone;
      otherwise the objects are created with the policy current right now. */
  function AddObjectsForMeshes(s: Streamer, meshes: seq<Mesh>, originEcef: Vec3,
                               materialName: string, materials: MaterialSource): (r: Result<Streamer>)
    ensures |meshes| == 0 ==> r == Failure(IndexOutOfRangeException)
    ensures |meshes| > 0 && meshes[0].name in s.records ==> r == Success(s)
    ensures |meshes| > 0 && meshes[0].name !in s.records ==>
      (r.Success? <==> forall i :: 0 <= i < |meshes| ==> CanCollide(meshes[i], s.collisions))
    ensures r.Success? ==>
      && r.value.root == s.root
      && r.value.collisions == s.collisions
      && r.value.records.Keys == s.records.Keys + {meshes[0].name}
      && (forall id :: id in s.records ==> r.value.records[id] == s.records[id])
    ensures r.Success? && meshes[0].name !in s.records ==>
      var rec := r.value.records[meshes[0].name];
      && rec.originEcef == originEcef
      && |rec.objects| == |meshes|
      && forall i :: 0 <= i < |meshes| ==>
           Fresh(rec.objects[i], meshes[i], materials(meshes[0].name, materialName),
                 CreateGameObjectName(meshes[i].name, i), s.collisions, s.root)
  {
    if |meshes| == 0 then Failure(IndexOutOfRangeException)
    else
      var id := meshes[0].name;
      if id in s.records then Success(s)
      else
        var objects :- CreateGameObjects(meshes, materials(id, materialName), s.collisions, s.root);
        Success(s.(records := s.records[id := Record(originEcef, objects)]))
  }

  /** `RemoveObjects`: reports whether the id was present; afterwards it is not. */
  function RemoveObjects(s: Streamer, id: string): (r: (Streamer, bool))
    ensures r.1 <==> id in s.records
    ensures r.0.records.Keys == s.records.Keys - {id}
    ensures forall other :: other in r.0.records ==> r.0.records[other] == s.records[other]
    ensures r.0.root == s.root && r.0.collisions == s.collisions
  {
    (s.(records := s.records - {id}), id in s.records)
  }

  /** `GetObjects`: the objects for the id, or null when it is absent. */
  function GetObjects(s: Streamer, id: string): (r: Option<seq<GameObject>>)
    ensures r.Some? <==> id in s.records
    ensures r.Some? ==> r.value == s.records[id].objects
  {
    if id in s.records then Some(s.records[id].objects) else None
  }

  /** `gameObject.SetActive(visible)` for every object of a batch. */
  function SetAllActive(objects: seq<GameObject>, visible: bool): (r: seq<GameObject>)
    ensures |r| == |objects|
    ensures forall i :: 0 <= i < |r| ==> r[i] == objects[i].(active := visible)
  {
    seq(|objects|, i requires 0 <= i < |objects| => objects[i].(active := visible))
  }

  /** `SetVisible`: sets the active flag of every object of the id; nothing
      happens for an absent id, and no other record changes. */
  function SetVisible(s: Streamer, id: string, visible: bool): (r: Streamer)
    ensures r.records.Keys == s.records.Keys
    ensures r.root == s.root && r.collisions == s.collisions
    ensures id !in s.records ==> r == s
    ensures id in s.records ==>
      && r.records[id].originEcef == s.records[id].originEcef
      && |r.records[id].objects| == |s.records[id].objects|
      && forall i :: 0 <= i < |r.records[id].objects| ==>
           r.records[id].objects[i].active == visible
           && r.records[id].objects[i] == s.records[id].objects[i].(active := visible)
    ensures forall other :: other in s.records && other != id ==> r.records[other] == s.records[other]
  {
    if id in s.records then
      var rec := s.records[id];
      s.(records := s.records[id := rec.(objects := SetAllActive(rec.objects, visible))])
    else s
  }

  /** `ChangeCollision`: only the policy for later adds changes. */
  function ChangeCollision(s: Streamer, collisions: CollisionStreamingType): (r: Streamer)
    ensures r.collisions == collisions
    ensures r.records == s.records && r.root == s.root
  {
    s.(collisions := collisions)
  }

  /** Places every object of a batch with the strategy, from the record's origin. */
  function PlaceAll(objects: seq<GameObject>, strategy: TransformUpdateStrategy,
                    originEcef: Vec3, heightOffset: real): (r: seq<GameObject>)
    ensures |r| == |objects|
    ensures forall i :: 0 <= i < |r| ==>
      r[i] == objects[i].(transform := strategy(objects[i].transform, originEcef, heightOffset))
  {
    seq(|objects|, i requires 0 <= i < |objects| =>
      objects[i].(transform := strategy(objects[i].transform, originEcef, heightOffset)))
  }

  /** `UpdateTransforms`, forwarded to the repository: every object of every
      record is placed by the strategy from its record's origin with the
      category's height offset. Which objects exist, and their visibility,
      do not change. */
  function UpdateTransforms(s: Streamer, strategy: TransformUpdateStrategy, heightOffset: real): (r: Streamer)
    ensures r.records.Keys == s.records.Keys
    ensures r.root == s.root && r.collisions == s.collisions
    ensures forall id :: id in s.records ==>
      var before := s.records[id];
      var after := r.records[id];
      && after.originEcef == before.originEcef
      && |after.objects| == |before.objects|
      && forall i :: 0 <= i < |after.objects| ==>
           after.objects[i] == before.objects[i].(transform :=
             strategy(before.objects[i].transform, before.originEcef, heightOffset))
  {
    s.(records := map id | id in s.records ::
         s.records[id].(objects := PlaceAll(s.records[id].objects, strategy,
                                            s.records[id].originEcef, heightOffset)))
  }

  // ---------------------------------------------------------------------
  // Properties

  /** Two objects agree in everything except the active flag. */
  predicate SameButActive(a: seq<GameObject>, b: seq<GameObject>) {
    |a| == |b| && forall i :: 0 <= i < |a| ==> a[i].(active := false) == b[i].(active := false)
  }

  /** A repeated add for an id never creates a second record: adding the same
      batch twice has the effect of adding it once. */
  lemma AddIsIdempotent(s: Streamer, meshes: seq<Mesh>, originEcef: Vec3, materialName: string,
                        materials: MaterialSource)
    requires AddObjectsForMeshes(s, meshes, originEcef, materialName, materials).Success?
    ensures var once := AddObjectsForMeshes(s, meshes, originEcef, materialName, materials).value;
      AddObjectsForMeshes(once, meshes, originEcef, materialName, materials) == Success(once)
  {
  }

  /** Any later add whose first mesh carries an id already present leaves
      the streamer unchanged, whatever its other meshes, origin or material. */
  lemma AddForPresentIdIsNoOp(s: Streamer, meshes: seq<Mesh>, originEcef: Vec3,
                              materialName: string, materials: MaterialSource)
    requires |meshes| > 0 && GetObjects(s, meshes[0].name).Some?
    ensures AddObjectsForMeshes(s, meshes, originEcef, materialName, materials) == Success(s)
  {
  }

  /** Visibility toggles never change which objects `GetObjects` returns:
      presence, count, names, meshes, materials and colliders stay. */
  lemma VisibilityKeepsObjects(s: Streamer, id: string, visible: bool, query: string)
    ensures GetObjects(SetVisible(s, id, visible), query).Some? <==> GetObjects(s, query).Some?
    ensures GetObjects(s, query).Some? ==>
      SameButActive(GetObjects(SetVisible(s, id, visible), query).value, GetObjects(s, query).value)
  {
  }

  /** Showing then hiding an id leaves exactly the state of hiding it, so a
      freshly added (inactive) record is restored by a show/hide pair. */
  lemma ShowThenHide(s: Streamer, id: string)
    ensures SetVisible(SetVisible(s, id, true), id, false) == SetVisible(s, id, false)
  {
    if id in s.records {
      var a := SetVisible(SetVisible(s, id, true), id, false).records[id];
      var b := SetVisible(s, id, false).records[id];
      assert a.objects == b.objects;
    }
  }

  /** Hiding the objects of a record whose objects are all inactive changes nothing. */
  lemma HideInactiveIsNoOp(s: Streamer, id: string)
    requires id in s.records
    requires forall i :: 0 <= i < |s.records[id].objects| ==> !s.records[id].objects[i].active
    ensures SetVisible(s, id, false) == s
  {
    var after := SetVisible(s, id, false);
    assert after.records[id].objects == s.records[id].objects;
    assert after.records == s.records;
  }

  /** A fresh add followed by a show and a hide restores the just-added state. */
  lemma AddShowHideRestores(s: Streamer, meshes: seq<Mesh>, originEcef: Vec3,
                            materialName: string, materials: MaterialSource)
    requires |meshes| > 0 && meshes[0].name !in s.records
    requires AddObjectsForMeshes(s, meshes, originEcef, materialName, materials).Success?
    ensures var added := AddObjectsForMeshes(s, meshes, originEcef, materialName, materials).value;
      SetVisible(SetVisible(added, meshes[0].name, true), meshes[0].name, false) == added
  {
    var added := AddObjectsForMeshes(s, meshes, originEcef, materialName, materials).value;
    ShowThenHide(added, meshes[0].name);
    HideInactiveIsNoOp(added, meshes[0].name);
  }

  /** Removing an absent id reports false and changes nothing. */
  lemma RemoveAbsentIsNoOp(s: Streamer, id: string)
    requires GetObjects(s, id).None?
    ensures RemoveObjects(s, id) == (s, false)
  {
    assert s.records - {id} == s.records;
  }

  /** A policy change is not retroactive: every existing record keeps its
      objects, and a later add uses the new policy. */
  lemma CollisionChangeAffectsOnlyLaterAdds(s: Streamer, policy: CollisionStreamingType, id: string,
                                            meshes: seq<Mesh>, originEcef: Vec3,
                                            materialName: string, materials: MaterialSource)
    ensures GetObjects(ChangeCollision(s, policy), id) == GetObjects(s, id)
    ensures var r := AddObjectsForMeshes(ChangeCollision(s, policy), meshes, originEcef, materialName, materials);
      r.Success? && |meshes| > 0 && meshes[0].name !in s.records ==>
        forall i :: 0 <= i < |meshes| ==>
          ColliderFits(r.value.records[meshes[0].name].objects[i].collider, meshes[i], policy)
  {
  }
}

=== FILE: geographic_api.dfy ===
/** `GeographicApi`: the list of geographic transforms repositioned every
    frame. It is a `List`: registration appends, unregistration removes the
    first occurrence, and the same transform may be listed more than once. */
module GeographicApi {

  /** A `GeographicTransform` behaviour, by object identity. */
  type AnchorRef = nat

  /** The number of times `x` occurs in `s`. */
  function Count(s: seq<AnchorRef>, x: AnchorRef): nat {
    multiset(s)[x]
  }

  /** `RegisterGeographicTransform`: `List.Add`. */
  function Register(registry: seq<AnchorRef>, anchor: AnchorRef): (r: seq<AnchorRef>)
    ensures |r| == |registry| + 1 && r[|registry|] == anchor && r[..|registry|] == registry
    ensures multiset(r) == multiset(registry) + multiset{anchor}
  {
    registry + [anchor]
  }

  /** `UnregisterGeographicTransform`: `List.Remove`, which removes one
      occurrence and leaves a list without the anchor unchanged
      (`UnregisterRemovesFirst` says which occurrence). */
  function Unregister(registry: seq<AnchorRef>, anchor: AnchorRef): (r: seq<AnchorRef>)
    ensures anchor !in registry ==> r == registry
    ensures anchor in registry ==> |r| == |registry| - 1
    decreases |registry|
  {
    if registry == [] then []
    else if registry[0] == anchor then registry[1..]
    else [registry[0]] + Unregister(registry[1..], anchor)
  }

  /** Exactly one occurrence goes, when there is one. */
  lemma {:induction false} UnregisterCounts(registry: seq<AnchorRef>, anchor: AnchorRef)
    ensures multiset(Unregister(registry, anchor)) == multiset(registry) - multiset{anchor}
    decreases |registry|
  {
    if registry != [] {
      assert registry == [registry[0]] + registry[1..];
      if registry[0] != anchor {
        UnregisterCounts(registry[1..], anchor);
      }
    }
  }

  /** The occurrence removed is the first one. */
  lemma {:induction false} UnregisterRemovesFirst(registry: seq<AnchorRef>, anchor: AnchorRef, i: nat)
    requires i < |registry| && registry[i] == anchor && anchor !in registry[..i]
    ensures Unregister(registry, anchor) == registry[..i] + registry[i + 1..]
    decreases i
  {
    if i > 0 {
      assert registry[0] in registry[..i];
      var tail := registry[1..];
      assert tail[..i - 1] == registry[1..i];
      assert anchor !in tail[..i - 1] by {
        forall k | 0 <= k < i - 1 ensures tail[k] != anchor {
          assert tail[k] == registry[..i][k + 1];
        }
      }
      UnregisterRemovesFirst(tail, anchor, i - 1);
      assert registry[..i] == [registry[0]] + tail[..i - 1];
      assert registry[i + 1..] == tail[i..];
    }
  }

  /** Registering a transform that was not listed and then unregistering it
      restores the list exactly. */
  lemma {:induction false} RegisterThenUnregister(registry: seq<AnchorRef>, anchor: AnchorRef)
    requires anchor !in registry
    ensures Unregister(Register(registry, anchor), anchor) == registry
    decreases |registry|
  {
    if registry != [] {
      var appended := Register(registry, anchor);
      assert appended[0] == registry[0] != anchor;
      assert appended[1..] == Register(registry[1..], anchor);
      RegisterThenUnregister(registry[1..], anchor);
      assert Unregister(appended, anchor) == [registry[0]] + registry[1..];
    }
  }

  /** If the transform was already listed, the pair removes the earlier
      entry instead: the same entries remain, but the order may differ. */
  lemma RegisterThenUnregisterListed(registry: seq<AnchorRef>, anchor: AnchorRef)
    ensures multiset(Unregister(Register(registry, anchor), anchor)) == multiset(registry)
  {
    UnregisterCounts(Register(registry, anchor), anchor);
  }

  lemma RegisterThenUnregisterReorders()
    ensures Unregister(Register([7, 8], 7), 7) == [8, 7]
  {
  }

  /** `f` applied `n` times to `x`. */
  function Iterate<A>(f: A -> A, n: nat, x: A): A
    decreases n
  {
    if n == 0 then x else Iterate(f, n - 1, f(x))
  }

  /** `UpdateTransforms`: the per-transform update (`UpdateTransform`) on
      every listed transform, in list order, over the live transforms held by
      identity. Which transforms exist does not change. */
  function UpdateTransforms<A>(registry: seq<AnchorRef>, anchors: map<AnchorRef, A>,
                               update: A -> A): (r: map<AnchorRef, A>)
    requires forall i :: 0 <= i < |registry| ==> registry[i] in anchors
    ensures r.Keys == anchors.Keys
    decreases |registry|
  {
    if registry == [] then anchors
    else UpdateTransforms(registry[1..], anchors[registry[0] := update(anchors[registry[0]])], update)
  }

  /** Each transform is updated once per occurrence in the list: a transform
      listed twice is updated twice, one not listed is untouched. */
  lemma {:induction false} UpdateOncePerEntry<A>(registry: seq<AnchorRef>, anchors: map<AnchorRef, A>,
                                                 update: A -> A, a: AnchorRef)
    requires forall i :: 0 <= i < |registry| ==> registry[i] in anchors
    requires a in anchors
    ensures UpdateTransforms(registry, anchors, update)[a] == Iterate(update, Count(registry, a), anchors[a])
    decreases |registry|
  {
    if registry != [] {
      var h := registry[0];
      var next := anchors[h := update(anchors[h])];
      assert registry == [h] + registry[1..];
      assert Count(registry, a) == (if a == h then 1 else 0) + Count(registry[1..], a);
      UpdateOncePerEntry(registry[1..], next, update, a);
    }
  }
}

=== FILE: geographic_transform.dfy ===
/** `GeographicTransform`: a behaviour that keeps its object positioned and
    oriented at a point on the globe, and registers itself with the
    `GeographicApi` of the current `Api.Instance` when it is enabled. */
module GeographicTransform {
  import opened Wrappers
  import opened Geometry
  import GA = GeographicApi
  import Api
  import ApiKeyHelpers
  import MS = MapGameObjectScene

  /** The behaviour's state: the serialized initial position and heading,
      the tangent basis, the object's transform and the registration flag. */
  datatype GeographicTransform = GeographicTransform(
    initialLatitude: real,
    initialLongitude: real,
    initialHeadingInDegrees: real,
    tangentBasis: TangentBasis,
    transform: Transform,
    hasEverBeenRegistered: bool)

  /** What `Api.Instance.GeographicApi` gives the behaviour: no Api at all,
      an Api whose implementation is null (the swallowed missing-DLL case,
      where reading the property throws), or the registry of a live Api. */
  datatype ApiRegistry = NoApi | WithoutImplementation | Live(registry: seq<nat>)

  /** The view of an `Api.Instance` whose implementation, if any, holds `registry`. */
  function RegistryOf(instance: Api.Instance, registry: seq<nat>): (r: ApiRegistry)
    ensures r.NoApi? <==> instance.None?
    ensures r.WithoutImplementation? <==> instance.Some? && !instance.value.hasImplementation
    ensures r.Live? ==> r.registry == registry
  {
    match instance
    case None => NoApi
    case Some(api) => if api.hasImplementation then Live(registry) else WithoutImplementation
  }

  /** `Awake`: the basis at the initial point, with the initial heading. */
  function Awake(g: GeographicTransform, math: EcefMath): (r: GeographicTransform)
    requires Sound(math)
    ensures GetEcefPosition(r) == math.toEcef(LatLong(g.initialLatitude, g.initialLongitude))
    ensures r.tangentBasis == math.basisFromPointAndHeading(
      math.toEcef(LatLong(g.initialLatitude, g.initialLongitude)), g.initialHeadingInDegrees)
    ensures r == g.(tangentBasis := r.tangentBasis)
  {
    var point := math.toEcef(LatLong(g.initialLatitude, g.initialLongitude));
    g.(tangentBasis := math.basisFromPointAndHeading(point, g.initialHeadingInDegrees))
  }

  /** `RegisterSelf`: registers only when an Api exists, and only then
      remembers having been registered. On an Api without implementation
      the `GeographicApi` access throws before the flag is set. */
  function RegisterSelf(self: nat, g: GeographicTransform, api: ApiRegistry): (r: Partial<(GeographicTransform, ApiRegistry)>)
    ensures api.NoApi? ==> r == Partial((g, api), None)
    ensures api.WithoutImplementation? ==> r == Partial((g, api), Some(NullReferenceException))
    ensures api.Live? ==>
      && r.thrown.None?
      && r.state.1 == Live(api.registry + [self])
      && r.state.0 == g.(hasEverBeenRegistered := true)
  {
    match api
    case NoApi => Partial((g, api), None)
    case WithoutImplementation => Partial((g, api), Some(NullReferenceException))
    case Live(registry) => Partial((g.(hasEverBeenRegistered := true), Live(GA.Register(registry, self))), None)
  }

  /** `UnregisterSelf`: unregisters only when an Api exists; the flag stays.
      On an Api without implementation the access throws. */
  function UnregisterSelf(self: nat, g: GeographicTransform, api: ApiRegistry): (r: Partial<(GeographicTransform, ApiRegistry)>)
    ensures r.state.0 == g
    ensures r.thrown.Some? <==> api.WithoutImplementation?
    ensures r.thrown.Some? ==> r.thrown.value == NullReferenceException
    ensures !api.Live? ==> r.state.1 == api
    ensures api.Live? ==> r.state.1.Live? && multiset(r.state.1.registry) == multiset(api.registry) - multiset{self}
  {
    match api
    case NoApi => Partial((g, api), None)
    case WithoutImplementation => Partial((g, api), Some(NullReferenceException))
    case Live(registry) =>
      GA.UnregisterCounts(registry, self);
      Partial((g, Live(GA.Unregister(registry, self))), None)
  }

  function OnEnable(self: nat, g: GeographicTransform, api: ApiRegistry): (r: Partial<(GeographicTransform, ApiRegistry)>)
    ensures r == RegisterSelf(self, g, api)
  {
    RegisterSelf(self, g, api)
  }

  function OnDisable(self: nat, g: GeographicTransform, api: ApiRegistry): (r: Partial<(GeographicTransform, ApiRegistry)>)
    ensures r == UnregisterSelf(self, g, api)
  {
    UnregisterSelf(self, g, api)
  }

  /** `Start`: registers only a transform that was never registered, which
      covers the case of no Api existing yet at `OnEnable`. */
  function Start(self: nat, g: GeographicTransform, api: ApiRegistry): (r: Partial<(GeographicTransform, ApiRegistry)>)
    ensures g.hasEverBeenRegistered ==> r == Partial((g, api), None)
    ensures !g.hasEverBeenRegistered ==> r == RegisterSelf(self, g, api)
  {
    if !g.hasEverBeenRegistered then RegisterSelf(self, g, api) else Partial((g, api), None)
  }

  /** An enable/disable pair leaves a live registry with the same entries;
      on an Api without implementation both calls throw and nothing changes. */
  lemma EnableDisableKeepsRegistry(self: nat, g: GeographicTransform, api: ApiRegistry)
    ensures var enabled := OnEnable(self, g, api);
      var disabled := OnDisable(self, enabled.state.0, enabled.state.1);
      && disabled.state.1.Live? == api.Live?
      && (api.Live? ==> multiset(disabled.state.1.registry) == multiset(api.registry))
      && (!api.Live? ==> disabled.state == (g, api))
      && (enabled.thrown.Some? <==> api.WithoutImplementation?)
      && (disabled.thrown.Some? <==> api.WithoutImplementation?)
  {
    if api.Live? {
      GA.RegisterThenUnregisterListed(api.registry, self);
    }
  }

  /** Unity's start-up order with an Api present: `OnEnable` registers and
      `Start` does not register again, so the transform is listed once. */
  lemma EnableThenStartRegistersOnce(self: nat, g: GeographicTransform, registry: seq<nat>)
    requires self !in registry
    ensures var enabled := OnEnable(self, g, Live(registry));
      var started := Start(self, enabled.state.0, enabled.state.1);
      && started.thrown.None?
      && started.state.1 == Live(registry + [self])
      && multiset(started.state.1.registry)[self] == 1
  {
  }

  /** With no Api at `OnEnable` but one by `Start`, `Start` registers it. */
  lemma LateApiRegistersAtStart(self: nat, g: GeographicTransform, registry: seq<nat>)
    requires !g.hasEverBeenRegistered
    ensures var enabled := OnEnable(self, g, NoApi);
      var started := Start(self, enabled.state.0, Live(registry));
      started == Partial((g.(hasEverBeenRegistered := true), Live(registry + [self])), None)
  {
  }

  /** After `Api.Create` swallowed the missing-DLL error, `OnEnable` throws,
      and since the flag never gets set, so does every later `Start`. */
  lemma SwallowedApiBreaksRegistration(apiKey: string, collisions: MS.CollisionConfig,
                                       registry: seq<nat>, self: nat, g: GeographicTransform)
    requires ApiKeyHelpers.AppearsValid(apiKey)
    requires !g.hasEverBeenRegistered
    ensures var created := Api.Create(None, apiKey, collisions, Api.DllNotFound("StreamAlpha"), Api.Pointer32);
      var api := RegistryOf(created.state, registry);
      var enabled := OnEnable(self, g, api);
      && created.thrown.None?
      && enabled == Partial((g, WithoutImplementation), Some(NullReferenceException))
      && Start(self, enabled.state.0, enabled.state.1) == enabled
  {
    Api.SwallowsMixedCaseName();
  }

  /** `GetEcefPosition`. */
  function GetEcefPosition(g: GeographicTransform): Vec3 {
    g.tangentBasis.pointEcef
  }

  /** The position read back follows the setters: `Awake` and `SetPosition`
      put it at their point, while `SetHeading` and `UpdateTransform` leave
      it where it was. */
  lemma EcefPositionAfterSetters(g: GeographicTransform, p: Vec3, headingInDegrees: real,
                                 math: EcefMath, strategy: TransformUpdateStrategy)
    requires Sound(math)
    ensures GetEcefPosition(Awake(g, math)) == math.toEcef(LatLong(g.initialLatitude, g.initialLongitude))
    ensures GetEcefPosition(SetPosition(g, p, math)) == p
    ensures GetEcefPosition(SetHeading(g, headingInDegrees, math)) == GetEcefPosition(g)
    ensures GetEcefPosition(UpdateTransform(g, strategy)) == GetEcefPosition(g)
  {
  }

  /** `SetPosition(DoubleVector3)`: the basis is moved to the point. */
  function SetPosition(g: GeographicTransform, ecefPosition: Vec3, math: EcefMath): (r: GeographicTransform)
    requires Sound(math)
    ensures GetEcefPosition(r) == ecefPosition
    ensures r == g.(tangentBasis := math.setPoint(g.tangentBasis, ecefPosition))
  {
    g.(tangentBasis := math.setPoint(g.tangentBasis, ecefPosition))
  }

  /** `SetPosition(LatLong)`: the same as setting its ECEF conversion. */
  function SetPositionLatLong(g: GeographicTransform, latLong: LatLong, math: EcefMath): (r: GeographicTransform)
    requires Sound(math)
    ensures r == SetPosition(g, math.toEcef(latLong), math)
    ensures GetEcefPosition(r) == math.toEcef(latLong)
  {
    SetPosition(g, math.toEcef(latLong), math)
  }

  /** `SetHeading`: a new basis at the current point, so the position stays. */
  function SetHeading(g: GeographicTransform, headingInDegrees: real, math: EcefMath): (r: GeographicTransform)
    requires Sound(math)
    ensures GetEcefPosition(r) == GetEcefPosition(g)
    ensures r.tangentBasis == math.basisFromPointAndHeading(GetEcefPosition(g), headingInDegrees)
  {
    g.(tangentBasis := math.basisFromPointAndHeading(g.tangentBasis.pointEcef, headingInDegrees))
  }

  /** `UpdateTransform`: the strategy places the object at the basis point
      with no height offset, then the basis orientation is multiplied onto
      the resulting local rotation (layered on it, not replacing it). */
  function UpdateTransform(g: GeographicTransform, strategy: TransformUpdateStrategy): (r: GeographicTransform)
    ensures var placed := strategy(g.transform, GetEcefPosition(g), 0.0);
      && r.transform.localPosition == placed.localPosition
      && r.transform.localScale == placed.localScale
      && r.transform.localRotation ==
         Compose(placed.localRotation, LookRotation(g.tangentBasis.forward, g.tangentBasis.up))
    ensures r == g.(transform := r.transform)
  {
    var placed := strategy(g.transform, g.tangentBasis.pointEcef, 0.0);
    var rotation := LookRotation(g.tangentBasis.forward, g.tangentBasis.up);
    g.(transform := placed.(localRotation := Compose(placed.localRotation, rotation)))
  }

  /** `GeographicApi.UpdateTransforms` over the live transforms. */
  function UpdateRegistered(registry: seq<nat>, anchors: map<nat, GeographicTransform>,
                            strategy: TransformUpdateStrategy): (r: map<nat, GeographicTransform>)
    requires forall i :: 0 <= i < |registry| ==> registry[i] in anchors
    ensures r.Keys == anchors.Keys
    ensures forall a :: a in anchors ==>
      r[a] == GA.Iterate(g => UpdateTransform(g, strategy), GA.Count(registry, a), anchors[a])
  {
    var r := GA.UpdateTransforms(registry, anchors, g => UpdateTransform(g, strategy));
    forall a | a in anchors
      ensures r[a] == GA.Iterate(g => UpdateTransform(g, strategy), GA.Count(registry, a), anchors[a])
    {
      GA.UpdateOncePerEntry(registry, anchors, g => UpdateTransform(g, strategy), a);
    }
    r
  }

  /** Updating never moves the basis, so a transform listed twice has the
      basis orientation multiplied onto its rotation after each placement. */
  lemma UpdateTwice(g: GeographicTransform, strategy: TransformUpdateStrategy)
    ensures var once := UpdateTransform(g, strategy);
      var twice := GA.Iterate(g => UpdateTransform(g, strategy), 2, g);
      && twice == UpdateTransform(once, strategy)
      && twice.tangentBasis == g.tangentBasis
      && twice.transform.localRotation ==
         Compose(strategy(once.transform, GetEcefPosition(g), 0.0).localRotation,
                 LookRotation(g.tangentBasis.forward, g.tangentBasis.up))
  {
    var f := g => UpdateTransform(g, strategy);
    assert GA.Iterate(f, 2, g) == GA.Iterate(f, 1, f(g)) == GA.Iterate(f, 0, f(f(g)));
  }
}

=== FILE: geometry.dfy ===
/** Opaque geometric values. The model never computes with coordinates: it
    only copies, stores and forwards them, so every component is an
    uninterpreted `real`, and every geodetic computation the code delegates
    to a helper it does not define is a function value the caller supplies. */
module Geometry {

  /** `Vector3` / `DoubleVector3`. */
  datatype Vec3 = Vec3(x: real, y: real, z: real)

  const One := Vec3(1.0, 1.0, 1.0)

  datatype LatLong = LatLong(latitudeDegrees: real, longitudeDegrees: real)

  datatype LatLongAltitude = LatLongAltitude(latitudeDegrees: real, longitudeDegrees: real, altitude: real)

  /** `LatLongAltitude.FromDegrees(latLong.GetLatitude(), latLong.GetLongitude(), altitude)`. */
  function WithAltitude(p: LatLong, altitude: real): (r: LatLongAltitude)
    ensures r.latitudeDegrees == p.latitudeDegrees && r.longitudeDegrees == p.longitudeDegrees
    ensures r.altitude == altitude
  {
    LatLongAltitude(p.latitudeDegrees, p.longitudeDegrees, altitude)
  }

  /** A quaternion as a term: `Compose(a, b)` is the product `a * b`, so the
      model records exactly which rotations were multiplied in which order
      without interpreting them. */
  datatype Rotation =
    | Identity
    | LookRotation(forward: Vec3, up: Vec3)
    | Compose(left: Rotation, right: Rotation)
    | Computed(tag: nat)  // a rotation produced by code outside the model

  /** The local part of a Unity `Transform`. */
  datatype Transform = Transform(localPosition: Vec3, localRotation: Rotation, localScale: Vec3)

  /** `ITransformUpdateStrategy.UpdateTransform(transform, originEcef, heightOffset)`:
      the coordinate-system specific placement, outside the model. */
  type TransformUpdateStrategy = (Transform, Vec3, real) -> Transform

  /** `EcefTangentBasis`: a point on the globe with a local orientation. */
  datatype TangentBasis = TangentBasis(pointEcef: Vec3, forward: Vec3, up: Vec3)

  /** The geodetic helpers the code calls but does not define: `LatLong.ToECEF`,
      `EcefHelpers.EcefTangentBasisFromPointAndHeading` and
      `EcefTangentBasis.SetPoint`. */
  datatype EcefMath = EcefMath(
    toEcef: LatLong -> Vec3,
    basisFromPointAndHeading: (Vec3, real) -> TangentBasis,
    setPoint: (TangentBasis, Vec3) -> TangentBasis)

  /** What the helpers promise about the basis they build: its point is the
      point they were given. */
  ghost predicate Sound(m: EcefMath) {
    && (forall p, h :: m.basisFromPointAndHeading(p, h).pointEcef == p)
    && (forall b, p :: m.setPoint(b, p).pointEcef == p)
  }
}

=== FILE: int32.dfy ===
/** .NET `int` arithmetic: 32-bit two's complement, and `++` / `+= 1` wrap
    around in the default unchecked context. */
module Int32 {

  const MinValue: int := -0x8000_0000
  const MaxValue: int := 0x7FFF_FFFF
  const Modulus: int := 0x1_0000_0000

  predicate InRange(x: int) {
    MinValue <= x <= MaxValue
  }

  /** The 32-bit value an unbounded result is truncated to. */
  function Wrap(x: int): (r: int)
    ensures InRange(r)
    ensures InRange(x) ==> r == x
  {
    (x - MinValue) % Modulus + MinValue
  }

  /** `x++` on an `int` in an unchecked context. */
  function Increment(x: int): (r: int)
    requires InRange(x)
    ensures InRange(r)
  {
    if x == MaxValue then MinValue else x + 1
  }

  /** `Increment` is the wrapped successor. */
  lemma IncrementIsWrap(x: int)
    requires InRange(x)
    ensures Increment(x) == Wrap(x + 1)
  {
  }

  /** Incrementing stays exact below the maximum and wraps to the minimum at it. */
  lemma WrapIncrement(x: int)
    requires InRange(x)
    ensures x < MaxValue ==> Wrap(x + 1) == x + 1
    ensures x == MaxValue ==> Wrap(x + 1) == MinValue
  {
  }

  /** Wrapping ignores whole multiples of 2^32. */
  lemma WrapCongruent(x: int, k: int)
    ensures Wrap(x + k * Modulus) == Wrap(x)
  {
    var q := (x - MinValue) / Modulus;
    var m := (x - MinValue) % Modulus;
    assert x - MinValue == q * Modulus + m;
    assert x + k * Modulus - MinValue == (q + k) * Modulus + m;
  }

  /** Incrementing a wrapped value is wrapping the increment. */
  lemma WrapSucc(x: int)
    ensures Wrap(Wrap(x) + 1) == Wrap(x + 1)
  {
    var q := (x - MinValue) / Modulus;
    assert Wrap(x) == x - q * Modulus;
    WrapCongruent(x + 1, -q);
  }

  /** Fewer than 2^32 consecutive integers wrap to distinct values. */
  lemma WrapInjectiveOnWindow(a: int, b: int)
    requires a < b < a + Modulus
    ensures Wrap(a) != Wrap(b)
  {
    var qa := (a - MinValue) / Modulus;
    var qb := (b - MinValue) / Modulus;
    assert Wrap(a) == a - qa * Modulus;
    assert Wrap(b) == b - qb * Modulus;
  }
}

=== FILE: map_game_object_scene.dfy ===
/** `MapGameObjectScene`: the entry point for the native plugin's add, delete
    and visibility callbacks. It drops them while disabled, otherwise routes
    each id to one of four category streamers by the id's prefix. */
module MapGameObjectScene {
  import opened Wrappers
  import opened Geometry
  import opened GameObjectFactory
  import GS = GameObjectStreamer

  datatype Category = Terrain | Road | Building | Highlight

  /** The four streamers and the enable gate. */
  datatype Scene = Scene(
    terrain: GS.Streamer,
    road: GS.Streamer,
    building: GS.Streamer,
    highlight: GS.Streamer,
    enabled: bool)

  /** What `MeshUploader.TryGetUnityMeshesForID` yields for an id: the meshes,
      their ECEF origin and the material name. */
  datatype MeshBatch = MeshBatch(meshes: seq<Mesh>, originEcef: Vec3, materialName: string)

  /** The mesh uploader, outside the model: `None` when it cannot supply the id. */
  type MeshSource = string -> Option<MeshBatch>

  /** `ConfigParams.CollisionConfig`. */
  datatype CollisionConfig = CollisionConfig(terrainCollision: bool, roadCollision: bool, buildingCollision: bool)

  /** The constructor: the given streamers, and the gate open. */
  function NewScene(terrain: GS.Streamer, road: GS.Streamer, building: GS.Streamer,
                    highlight: GS.Streamer): (sc: Scene)
    ensures sc.enabled
    ensures sc.terrain == terrain && sc.road == road && sc.building == building && sc.highlight == highlight
  {
    Scene(terrain, road, building, highlight, true)
  }

  function SetEnabled(sc: Scene, enabled: bool): (r: Scene)
    ensures r.enabled == enabled
    ensures StreamersOf(r) == StreamersOf(sc)
  {
    sc.(enabled := enabled)
  }

  function StreamersOf(sc: Scene): (GS.Streamer, GS.Streamer, GS.Streamer, GS.Streamer) {
    (sc.terrain, sc.road, sc.building, sc.highlight)
  }

  function StreamerFor(sc: Scene, c: Category): GS.Streamer {
    match c
    case Terrain => sc.terrain
    case Road => sc.road
    case Building => sc.building
    case Highlight => sc.highlight
  }

  /** Replaces the streamer of one category, leaving the other three alone. */
  function WithStreamer(sc: Scene, c: Category, s: GS.Streamer): (r: Scene)
    ensures StreamerFor(r, c) == s
    ensures forall other :: other != c ==> StreamerFor(r, other) == StreamerFor(sc, other)
    ensures r.enabled == sc.enabled
  {
    match c
    case Terrain => sc.(terrain := s)
    case Road => sc.(road := s)
    case Building => sc.(building := s)
    case Highlight => sc.(highlight := s)
  }

  predicate StartsWith(s: string, prefix: string) {
    |prefix| <= |s| && s[..|prefix|] == prefix
  }

  /** `GetStreamerFromName`: "Raster" and "Terrain" prefixes first, then the
      first character. An empty id throws when its first character is read;
      any other first character throws `ArgumentException`. */
  function GetStreamerFromName(name: string): (r: Result<Category>)
    ensures r == Failure(IndexOutOfRangeException) <==> name == []
  {
    if StartsWith(name, "Raster") || StartsWith(name, "Terrain") then Success(Terrain)
    else if |name| == 0 then Failure(IndexOutOfRangeException)
    else match name[0]
      case 'M' => Success(Terrain)
      case 'L' => Success(Terrain)
      case 'R' => Success(Road)
      case 'B' => Success(Building)
      case 'H' => Success(Highlight)
      case _ => Failure(ArgumentException)
  }

  /** The routing table, stated per category and in both directions: the
      first character decides, except that "Raster…" is terrain although it
      starts with 'R', and "Terrain…" is terrain although 'T' is unknown. */
  lemma RoutingTable(name: string)
    ensures GetStreamerFromName(name) == Success(Terrain) <==>
      StartsWith(name, "Raster") || StartsWith(name, "Terrain") || (|name| > 0 && name[0] in "ML")
    ensures GetStreamerFromName(name) == Success(Road) <==>
      |name| > 0 && name[0] == 'R' && !StartsWith(name, "Raster")
    ensures GetStreamerFromName(name) == Success(Building) <==> |name| > 0 && name[0] == 'B'
    ensures GetStreamerFromName(name) == Success(Highlight) <==> |name| > 0 && name[0] == 'H'
    ensures GetStreamerFromName(name) == Failure(ArgumentException) <==>
      |name| > 0 && name[0] !in "MLRBH" && !StartsWith(name, "Terrain")
  {
    if StartsWith(name, "Raster") { assert name[0] == 'R'; }
    if StartsWith(name, "Terrain") { assert name[0] == 'T'; }
  }

  /** `DeleteMesh`: behind the gate, removes the id from its category. */
  function DeleteMesh(sc: Scene, id: string): (r: Result<Scene>)
    ensures !sc.enabled ==> r == Success(sc)
    ensures sc.enabled ==> (r.Success? <==> GetStreamerFromName(id).Success?)
    ensures sc.enabled && r.Success? ==>
      var c := GetStreamerFromName(id).value;
      && id !in StreamerFor(r.value, c).records
      && StreamerFor(r.value, c) == GS.RemoveObjects(StreamerFor(sc, c), id).0
      && (forall other :: other != c ==> StreamerFor(r.value, other) == StreamerFor(sc, other))
      && r.value.enabled
  {
    if !sc.enabled then Success(sc)
    else
      var c :- GetStreamerFromName(id);
      Success(WithStreamer(sc, c, GS.RemoveObjects(StreamerFor(sc, c), id).0))
  }

  /** `SetVisible`: behind the gate, sets the visibility in the id's category. */
  function SetVisible(sc: Scene, id: string, visible: bool): (r: Result<Scene>)
    ensures !sc.enabled ==> r == Success(sc)
    ensures sc.enabled ==> (r.Success? <==> GetStreamerFromName(id).Success?)
    ensures sc.enabled && r.Success? ==>
      var c := GetStreamerFromName(id).value;
      && StreamerFor(r.value, c) == GS.SetVisible(StreamerFor(sc, c), id, visible)
      && (forall other :: other != c ==> StreamerFor(r.value, other) == StreamerFor(sc, other))
      && r.value.enabled
  {
    if !sc.enabled then Success(sc)
    else
      var c :- GetStreamerFromName(id);
      Success(WithStreamer(sc, c, GS.SetVisible(StreamerFor(sc, c), id, visible)))
  }

  /** The message `AddMeshInternal` logs when the uploader has no meshes. */
  function MissingMeshMessage(id: string): string {
    "ERROR: Could not get mesh for ID " + id + "."
  }

  /** `AddMeshInternal`: asks the uploader first. Without meshes it only logs,
      and the id is not even classified; with meshes it adds them to the
      id's category. The result carries the lines logged. */
  function AddMeshInternal(sc: Scene, id: string, uploader: MeshSource,
                           materials: GS.MaterialSource): (r: Result<(Scene, seq<string>)>)
    ensures uploader(id).None? ==> r == Success((sc, [MissingMeshMessage(id)]))
    ensures uploader(id).Some? && GetStreamerFromName(id).Failure? ==>
      r == Failure(GetStreamerFromName(id).error)
    ensures uploader(id).Some? && GetStreamerFromName(id).Success? ==>
      var added := GS.AddObjectsForMeshes(StreamerFor(sc, GetStreamerFromName(id).value), uploader(id).value.meshes,
                                          uploader(id).value.originEcef, uploader(id).value.materialName, materials);
      && (r.Success? <==> added.Success?)
      && (added.Failure? ==> r == Failure(added.error))
    ensures uploader(id).Some? && r.Success? ==>
      var c := GetStreamerFromName(id).value;
      var batch := uploader(id).value;
      && r.value.1 == []
      && GS.AddObjectsForMeshes(StreamerFor(sc, c), batch.meshes, batch.originEcef,
                                batch.materialName, materials) == Success(StreamerFor(r.value.0, c))
      && (forall other :: other != c ==> StreamerFor(r.value.0, other) == StreamerFor(sc, other))
      && r.value.0.enabled == sc.enabled
  {
    match uploader(id)
    case None => Success((sc, [MissingMeshMessage(id)]))
    case Some(batch) =>
      var c :- GetStreamerFromName(id);
      var s :- GS.AddObjectsForMeshes(StreamerFor(sc, c), batch.meshes, batch.originEcef,
                                      batch.materialName, materials);
      Success((WithStreamer(sc, c, s), []))
  }

  /** `AddMesh`: `AddMeshInternal` behind the gate. */
  function AddMesh(sc: Scene, id: string, uploader: MeshSource,
                   materials: GS.MaterialSource): (r: Result<(Scene, seq<string>)>)
    ensures !sc.enabled ==> r == Success((sc, []))
    ensures sc.enabled ==> r == AddMeshInternal(sc, id, uploader, materials)
  {
    if sc.enabled then AddMeshInternal(sc, id, uploader, materials) else Success((sc, []))
  }

  /** The collision flag of each category mapped to a policy: terrain and
      buildings collide single-sided, roads double-sided. */
  function PolicyFor(flag: bool, whenOn: CollisionStreamingType): CollisionStreamingType {
    if flag then whenOn else NoCollision
  }

  /** `ChangeCollision`: sets the policy of terrain, road and building from the
      flags; the highlight streamer and all existing objects are untouched. */
  function ChangeCollision(sc: Scene, config: CollisionConfig): (r: Scene)
    ensures r.terrain.collisions == (if config.terrainCollision then SingleSidedCollision else NoCollision)
    ensures r.road.collisions == (if config.roadCollision then DoubleSidedCollision else NoCollision)
    ensures r.building.collisions == (if config.buildingCollision then SingleSidedCollision else NoCollision)
    ensures r.highlight == sc.highlight && r.enabled == sc.enabled
    ensures forall c :: StreamerFor(r, c).records == StreamerFor(sc, c).records
    ensures forall c :: StreamerFor(r, c) == StreamerFor(sc, c).(collisions := StreamerFor(r, c).collisions)
  {
    sc.(terrain := GS.ChangeCollision(sc.terrain, PolicyFor(config.terrainCollision, SingleSidedCollision)),
        road := GS.ChangeCollision(sc.road, PolicyFor(config.roadCollision, DoubleSidedCollision)),
        building := GS.ChangeCollision(sc.building, PolicyFor(config.buildingCollision, SingleSidedCollision)))
  }

  /** The road streamer is lifted by 0.1 (`0.1f`) so roads draw above terrain. */
  const RoadHeightOffset: real := 0.1

  /** The height offset each category is updated with. */
  function HeightOffset(c: Category): real {
    if c == Road then RoadHeightOffset else 0.0
  }

  /** `UpdateTransforms`: every streamer with its category's height offset,
      which is 0.1 for roads and the default 0 for the other three. */
  function UpdateTransforms(sc: Scene, strategy: TransformUpdateStrategy): (r: Scene)
    ensures forall c :: StreamerFor(r, c) == GS.UpdateTransforms(StreamerFor(sc, c), strategy, HeightOffset(c))
    ensures r.enabled == sc.enabled
  {
    sc.(terrain := GS.UpdateTransforms(sc.terrain, strategy, 0.0),
        road := GS.UpdateTransforms(sc.road, strategy, RoadHeightOffset),
        building := GS.UpdateTransforms(sc.building, strategy, 0.0),
        highlight := GS.UpdateTransforms(sc.highlight, strategy, 0.0))
  }

  /** Only roads are offset: the offset is non-zero exactly for the road category. */
  lemma OnlyRoadsAreLifted(c: Category)
    ensures HeightOffset(c) != 0.0 <==> c == Road
  {
  }

  /** While the gate is closed, no callback changes any streamer, whatever
      the ids and whatever the uploader would supply. */
  lemma DisabledSceneIgnoresCallbacks(sc: Scene, id: string, visible: bool,
                                      uploader: MeshSource, materials: GS.MaterialSource)
    requires !sc.enabled
    ensures AddMesh(sc, id, uploader, materials) == Success((sc, []))
    ensures DeleteMesh(sc, id) == Success(sc)
    ensures SetVisible(sc, id, visible) == Success(sc)
  {
  }

  /** A scene disabled before teardown stays as it was through any sequence
      of late callbacks. */
  datatype Callback = Add(id: string) | Delete(id: string) | Visibility(id: string, visible: bool)

  function Deliver(sc: Scene, cb: Callback, uploader: MeshSource, materials: GS.MaterialSource): Result<Scene> {
    match cb
    case Add(id) =>
      var step :- AddMesh(sc, id, uploader, materials);
      Success(step.0)
    case Delete(id) => DeleteMesh(sc, id)
    case Visibility(id, visible) => SetVisible(sc, id, visible)
  }

  function DeliverAll(sc: Scene, cbs: seq<Callback>, uploader: MeshSource,
                      materials: GS.MaterialSource): Result<Scene>
    decreases |cbs|
  {
    if cbs == [] then Success(sc)
    else
      var next :- Deliver(sc, cbs[0], uploader, materials);
      DeliverAll(next, cbs[1..], uploader, materials)
  }

  lemma {:induction false} DisabledSceneIgnoresAllCallbacks(sc: Scene, cbs: seq<Callback>,
                                                            uploader: MeshSource, materials: GS.MaterialSource)
    requires !sc.enabled
    ensures DeliverAll(sc, cbs, uploader, materials) == Success(sc)
    decreases |cbs|
  {
    if cbs != [] {
      DisabledSceneIgnoresCallbacks(sc, cbs[0].id, if cbs[0].Visibility? then cbs[0].visible else false,
                                    uploader, materials);
      DisabledSceneIgnoresAllCallbacks(sc, cbs[1..], uploader, materials);
    }
  }
}

=== FILE: thread_service.dfy ===
/** `ThreadService`: the table of threads the native plugin asked for, keyed
    by `int` handles. The handles come from a counter that skips handles
    still in the table and the reserved invalid handle -1. Starting,
    joining and locking are left to the runtime; only the table is modelled. */
module ThreadService {
  import opened Wrappers
  import Int32

  /** `InvalidThreadID`. */
  const InvalidThreadID: int := -1

  /** A `System.Threading.Thread`, by object identity. */
  type Thread = nat

  /** `m_threads` and `m_nextThreadID`. */
  datatype ThreadService = ThreadService(threads: map<int, Thread>, nextThreadID: int)

  /** The constructor: an empty table and the counter at 0, a valid state. */
  function NewThreadService(): (t: ThreadService)
    ensures Valid(t)
    ensures t.threads == map[] && t.nextThreadID == 0
  {
    ThreadService(map[], 0)
  }

  /** Every handle and the counter are 32-bit values. */
  predicate Valid(t: ThreadService) {
    && Int32.InRange(t.nextThreadID)
    && forall id :: id in t.threads ==> Int32.InRange(id)
  }

  /** A handle the allocator must skip. */
  predicate Taken(t: ThreadService, id: int) {
    id in t.threads || id == InvalidThreadID
  }

  /** The `j`-th value the counter takes from `start`: `j` increments. */
  function Candidate(start: int, j: nat): (r: int)
    requires Int32.InRange(start)
    ensures Int32.InRange(r)
    decreases j
  {
    if j == 0 then start else Int32.Increment(Candidate(start, j - 1))
  }

  /** The `j`-th candidate is `start + j` wrapped to 32 bits. */
  lemma {:induction false} CandidateIsWrap(start: int, j: nat)
    requires Int32.InRange(start)
    ensures Candidate(start, j) == Int32.Wrap(start + j)
    decreases j
  {
    if j > 0 {
      CandidateIsWrap(start, j - 1);
      Int32.IncrementIsWrap(Candidate(start, j - 1));
      Int32.WrapSucc(start + j - 1);
    }
  }

  /** The candidates tried before the `n`-th. */
  function CandidatesBefore(start: int, n: nat): (r: set<int>)
    requires Int32.InRange(start)
    ensures forall j :: 0 <= j < n ==> Candidate(start, j) in r
    decreases n
  {
    if n == 0 then {} else CandidatesBefore(start, n - 1) + {Candidate(start, n - 1)}
  }

  /** A later candidate, fewer than 2^32 steps on, is new. */
  lemma {:induction false} CandidateIsNew(start: int, n: nat, m: nat)
    requires Int32.InRange(start) && n <= m < Int32.Modulus
    ensures Candidate(start, m) !in CandidatesBefore(start, n)
    decreases n
  {
    if n > 0 {
      CandidateIsNew(start, n - 1, m);
      CandidateIsWrap(start, n - 1);
      CandidateIsWrap(start, m);
      Int32.WrapInjectiveOnWindow(start + n - 1, start + m);
    }
  }

  /** `GenerateThreadID`: post-increments the counter until its old value is
      neither in the table nor the invalid handle. `skipped` counts the
      candidates passed over, all of which were taken. The source demands
      nothing; the precondition says a free handle exists, without which
      the loop would not end. */
  method GenerateThreadID(t: ThreadService) returns (id: int, next: int, ghost skipped: nat)
    requires Int32.InRange(t.nextThreadID)
    requires |t.threads| + 1 < Int32.Modulus
    ensures id != InvalidThreadID && id !in t.threads
    ensures Int32.InRange(id) && next == Int32.Wrap(id + 1)
    ensures id == Candidate(t.nextThreadID, skipped)
    ensures forall j :: 0 <= j < skipped ==> Taken(t, Candidate(t.nextThreadID, j))
  {
    var start := t.nextThreadID;
    ghost var visited: set<int> := {};
    skipped := 0;
    id := start;
    while Taken(t, id)
      invariant id == Candidate(start, skipped)
      invariant forall j :: 0 <= j < skipped ==> Taken(t, Candidate(start, j))
      invariant visited == CandidatesBefore(start, skipped)
      invariant |TakenSet(t) - visited| + skipped == |TakenSet(t)|
      decreases |TakenSet(t) - visited|
    {
      Advance(t, start, skipped, visited);
      visited := visited + {id};
      skipped := skipped + 1;
      id := Int32.Increment(id);
    }
    next := Int32.Increment(id);
    Int32.IncrementIsWrap(id);
  }

  /** The handles the allocator must skip, as a set. */
  function TakenSet(t: ThreadService): (r: set<int>)
    ensures forall id :: id in r <==> Taken(t, id)
    ensures |r| <= |t.threads| + 1
  {
    t.threads.Keys + {InvalidThreadID}
  }

  /** One round of the allocator loop: a taken candidate is one not seen
      before, so the unvisited part of the taken set shrinks. */
  lemma Advance(t: ThreadService, start: int, skipped: nat, visited: set<int>)
    requires Int32.InRange(start)
    requires |t.threads| + 1 < Int32.Modulus
    requires Taken(t, Candidate(start, skipped))
    requires visited == CandidatesBefore(start, skipped)
    requires |TakenSet(t) - visited| + skipped == |TakenSet(t)|
    ensures |TakenSet(t) - (visited + {Candidate(start, skipped)})| + skipped + 1 == |TakenSet(t)|
  {
    CandidateIsNew(start, skipped, skipped);
    RemoveUnvisited(TakenSet(t), visited, Candidate(start, skipped));
  }

  lemma RemoveUnvisited(taken: set<int>, visited: set<int>, x: int)
    requires x in taken && x !in visited
    ensures |taken - (visited + {x})| == |taken - visited| - 1
  {
    assert taken - (visited + {x}) == (taken - visited) - {x};
  }

  /** Handles increase by one per call until the counter reaches
      `int.MaxValue`, where it wraps to `int.MinValue`. */
  lemma CounterPassesReturnedHandle(id: int)
    requires Int32.InRange(id)
    ensures id < Int32.MaxValue ==> Int32.Wrap(id + 1) == id + 1 && Int32.Wrap(id + 1) > id
    ensures id == Int32.MaxValue ==> Int32.Wrap(id + 1) == Int32.MinValue
  {
    Int32.WrapIncrement(id);
  }

  /** `CreateThreadInternal`: the handle is the first free value of the
      counter, which ends one past it (wrapped); the thread is added to the
      table under that handle and nothing else in the table changes.
      `skipped` counts the taken handles passed over. */
  method CreateThread(t: ThreadService, thread: Thread) returns (r: ThreadService, id: int, ghost skipped: nat)
    requires Valid(t)
    requires |t.threads| + 1 < Int32.Modulus
    ensures Valid(r)
    ensures id !in t.threads && id != InvalidThreadID
    ensures id == Candidate(t.nextThreadID, skipped)
    ensures forall j :: 0 <= j < skipped ==> Taken(t, Candidate(t.nextThreadID, j))
    ensures r.nextThreadID == Int32.Wrap(id + 1)
    ensures r.threads == t.threads[id := thread]
    ensures r.threads.Keys == t.threads.Keys + {id}
    ensures JoinThread(r, id) == Success((t.(nextThreadID := r.nextThreadID), thread))
  {
    var next;
    id, next, skipped := GenerateThreadID(t);
    r := ThreadService(t.threads[id := thread], next);
    assert r.threads - {id} == t.threads;
  }

  /** `JoinThreadInternal`: the indexer throws for a handle not in the
      table; otherwise the entry is removed and its thread joined. */
  function JoinThread(t: ThreadService, id: int): (r: Result<(ThreadService, Thread)>)
    ensures r.Failure? <==> id !in t.threads
    ensures r.Failure? ==> r.error == KeyNotFoundException
    ensures r.Success? ==>
      && r.value.1 == t.threads[id]
      && r.value.0.threads.Keys == t.threads.Keys - {id}
      && (forall other :: other in r.value.0.threads ==> r.value.0.threads[other] == t.threads[other])
      && r.value.0.nextThreadID == t.nextThreadID
  {
    if id !in t.threads then Failure(KeyNotFoundException)
    else Success((t.(threads := t.threads - {id}), t.threads[id]))
  }

  /** Joining keeps the table valid, and a handle can be joined only once. */
  lemma JoinTwiceFails(t: ThreadService, id: int)
    requires Valid(t) && id in t.threads
    ensures Valid(JoinThread(t, id).value.0)
    ensures JoinThread(JoinThread(t, id).value.0, id) == Failure(KeyNotFoundException)
  {
  }
}

=== FILE: wrappers.dfy ===
/** Failure-carrying datatypes shared by every module of the model.

    The modelled code signals errors with .NET exceptions; here an operation
    that can throw returns a `Result` whose `Failure` names the exception kind.
    Where the code mutates state before it throws, the operation returns a
    `Partial`, which keeps the state the exception leaves behind. */
module Wrappers {

  /** The exception kinds the modelled code raises or lets escape. */
  datatype Exception =
    | ArgumentException          // explicit `throw new ArgumentException`, or a duplicate `Dictionary.Add`
    | ArgumentNullException      // a required camera was null
    | KeyNotFoundException       // `Dictionary` indexer on a missing key
    | IndexOutOfRangeException   // array or string index past the end
    | NullReferenceException     // member access through a null reference
    | InvalidApiKeyException     // the API key failed the format check
    | DllNotFoundException       // the native plugin could not be loaded

  /** A value that may be absent: the model of a nullable reference. */
  datatype Option<+T> = None | Some(value: T) {
    function GetOr(default: T): T {
      match this
      case Some(v) => v
      case None => default
    }
  }

  /** The outcome of an operation that either returns a value or throws. */
  datatype Result<+T> = Success(value: T) | Failure(error: Exception) {
    predicate IsFailure() {
      Failure?
    }

    function PropagateFailure<U>(): Result<U>
      requires Failure?
    {
      Failure(error)
    }

    function Extract(): T
      requires Success?
    {
      value
    }
  }

  /** The outcome of an operation that may throw after it has already changed
      state: `state` is what is left behind either way. */
  datatype Partial<+S> = Partial(state: S, thrown: Option<Exception>)
}
